=== FILE: README.md ===
# QuantumSecure transfer protocol, modelled in Dafny

This project models the core of QuantumSecure, a password-encrypted file-transfer
service. It covers the client that uploads a file and the server that receives it.
It has four parts:

- **`RateLimiter`** (`rate_limiter.dfy`). This is the sliding-window admission gate.
  Each client identity has a list of admission timestamps. A call evicts stale
  entries from the front, refuses when the cap is reached, and otherwise records `now`.
- **`AESCipher`** (`pkcs7.dfy`, `primitives.dfy`, `encryption.dfy`). This is the
  encrypt-then-MAC envelope. PKCS#7 padding with a 16-byte block (section 6.3 of
  RFC 5652) is modelled concretely. AES-256-CBC, HMAC-SHA256 and PBKDF2 are function
  values. The only facts relied on are the axioms collected in `Primitives.Sound`.
- **`SecureServer`** (`server.dfy`). This covers the per-connection handler
  `_handle_client` as a pure state machine, and the admission step of the accept loop.
  The handler runs over an abstract transport: a sequence of delivered chunks plus a
  flag saying whether the peer has closed. `recv(n)` returns at most `n` bytes of the
  first chunk. With nothing pending, a read returns empty once the peer has closed and
  blocks forever otherwise. The handler's outcome records:
  - the replies sent;
  - the reads made;
  - the file written;
  - the read it is blocked in, if any;
  - the connection registry.
- **`SecureClient`** (`client.dfy`). This covers `login` and `send_file` as functions
  of the server's replies. Each result lists everything the client sent.

`protocol.dfy` composes the two sides: each side reads what the other sent. It proves:
- the handler as written cannot complete an upload;
- with the two defects below corrected, the file arrives intact when each send arrives as a chunk of its own;
- when the metadata and the salt after it arrive as one chunk, even the corrected handler refuses the upload;
- a file of exactly the size cap passes the client's check and is refused by the corrected server, and the client then raises. Against the handler as written, the two sides stall after the token before the metadata is sent.

Nondeterminism and I/O are parameters:
- the salt and iv `os.urandom` draws;
- the file's bytes, or their absence;
- `time.time()`, which becomes a `real` `now`;
- the token check and whether the output file can be written;
- the JSON codec, given by `Messages.Codec`. It is required only to decode what it
  encodes and never to decode an empty read;
- how many sends each side's connection accepts before a send raises, which stands
  for the peer having closed.

`Settings` holds the constants of `Config` that the protocol uses.

## Model

| member | source | states |
|---|---|---|
| RateLimiter.NewLimiter | utils/rate_limiter.py:6-10 | a new limiter keeps the cap and window and has an empty history for every identity |
| RateLimiter.Evict | utils/rate_limiter.py:18-19 | eviction keeps a suffix, drops only entries strictly older than the cutoff, and stops at the first entry that is not |
| RateLimiter.IsAllowed | utils/rate_limiter.py:12-27 | admitted iff fewer than `max_requests` entries survive eviction; on admission exactly `now` is appended; on refusal nothing is appended; no other identity's list changes |
| RateLimiter.IsAllowedKeepsBound | utils/rate_limiter.py:22-26 | no list ever exceeds the cap, and every call preserves that invariant |
| RateLimiter.IsAllowedKeepsOrder | utils/rate_limiter.py:18-26 | with a clock that never runs backwards, every list stays ascending, which is why front-only eviction suffices |
| RateLimiter.EvictSortedInWindow | utils/rate_limiter.py:18-19 | on a sorted list, everything eviction keeps is at or after the cutoff |
| RateLimiter.IsAllowedKeepsWindow | utils/rate_limiter.py:14-27 | after a call, every kept timestamp lies in `[now - time_window, now]`; an entry exactly on the boundary survives |
| RateLimiter.IdentitiesIndependent | utils/rate_limiter.py:15 | a call for one identity never changes the answer for another |
| RateLimiter.BurstFillsCap | tests/test_security.py:38-44 | cap 2, window 1: two calls at t pass, the third is refused and leaves `[t, t]` |
| RateLimiter.RecoveryAfterWindow | tests/test_security.py:46-48 | from `[t, t]`, a call after `t + 1` passes, and a call exactly at `t + 1` is still refused |
| RateLimiter.BurstThenRecovery | tests/test_security.py:37-48 | the limiter test's whole scenario, including the exact-boundary refusal |
| Pkcs7.Pad | crypto/encryption.py:31-32 | the output is a multiple of 16, 1 to 16 bytes longer than the input, starts with the input, and ends in `k` bytes of value `k` |
| Pkcs7.Unpad | crypto/encryption.py:68-69 | it succeeds only on the padding of something (`Pad(r) == data`); an empty or ragged input is refused |
| Pkcs7.UnpadPad | crypto/encryption.py:31-32 | unpadding inverts padding for every byte string |
| Pkcs7.UnpadSucceedsIffPadded | crypto/encryption.py:68-69 | unpadding succeeds exactly on the outputs of padding |
| Pkcs7.PadInjective | crypto/encryption.py:31-32 | distinct inputs pad differently, so padding is unambiguous |
| Encryption.DeriveKey | crypto/encryption.py:12-20 | the key is PBKDF2 of (password, salt) and is 32 bytes long |
| Encryption.NewCipher | crypto/encryption.py:8-10 | an instance keeps its salt and the key derived from the password and that salt |
| Encryption.CreateHmac | crypto/encryption.py:22-25 | the tag is the 32-byte HMAC under the instance key |
| Encryption.Encrypt | crypto/encryption.py:27-46 | it returns the instance salt and the given iv; the tag is the HMAC of the ciphertext (encrypt-then-MAC); the ciphertext is as long as the padded plaintext |
| Encryption.VerifyAndDecrypt | crypto/encryption.py:48-69 | a tag mismatch is rejected before any decryption; success implies the tag matched, key and iv have valid sizes, and the result pads to the decryption |
| Encryption.EncryptRoundTrip | crypto/encryption.py:27-69 | verify-and-decrypt under the instance key returns exactly the encrypted data |
| Encryption.TamperRejected | tests/test_security.py:20-22 | a ciphertext whose tag does not verify, such as one with bytes appended, yields IntegrityCheckFailed |
| Encryption.SaltFixedPerInstance | crypto/encryption.py:9 | every `encrypt` on one instance returns the same salt |
| Encryption.ReceiverRederivesKey | crypto/encryption.py:8-20 | a receiver needs no cipher instance: the key derived from the password and the salt carried in the envelope opens the envelope and yields the data |
| Transport.Recv | server/server.py:88-90 | a read loses and duplicates nothing and returns at most `n` bytes (all of a front chunk that fits); it blocks exactly when nothing is pending and the peer is open, and on a stream of non-empty chunks it returns empty only when nothing is pending |
| Server.Read | server/server.py:78-80 | a fixed-size recv is logged, returns at most the requested count, and blocks exactly when nothing is pending and the peer is open |
| Server.Authenticate | server/server.py:57-62 | getting past the token costs exactly one read; the phase spends one unit of send budget per reply, stores nothing and never sends the success reply |
| Server.ReadMetadata | server/server.py:64-75 | a declaration that moves on has a size within the cap (so a larger one never does), costs exactly one read and sends nothing; nothing is stored and no success reply is sent |
| Server.ReadParams | server/server.py:77-80 | salt, iv and tag are read with requests of 16, 16 and 32 bytes, in that order; none is checked for a short read |
| Server.Send | server/server.py:130 | a `conn.send` of a JSON message moves on exactly when the connection still takes a send, appending exactly that message and spending one send; otherwise it raises BrokenPipe with the connection unchanged |
| Server.Reply | server/server.py:61-62 | a reply always ends the handler body: with a send left it returns after appending exactly the message; otherwise it raises BrokenPipe and nothing is sent |
| Server.TokenOf | server/server.py:59 | `auth_data.get('token')`: the `token` field when present, and `None` when absent |
| Server.ReadMessage | server/server.py:58 | one `recv(1024)` parsed as JSON: it moves on exactly when the read returns and the bytes decode, with the decoded message; otherwise it blocks in that read or raises the JSON error; it sends and stores nothing |
| Server.ReceivePayload | server/server.py:83-92 | the payload loop itself; its contract keeps the peer's close flag, and its properties are stated by Server.PayloadLoopReads, Server.PayloadLoopConserves, Server.PayloadLoopData and Server.PeerCloseEndsLoop |
| Server.PayloadLoopReads | server/server.py:86-92 | every payload read asks for `min(4096, filesize - bytes_received) > 0` and gets no more |
| Server.PayloadLoopConserves | server/server.py:86-92 | what the loop accumulates plus what stays unread equals what was pending; nothing is lost or duplicated |
| Server.PayloadLoopData | server/server.py:86-92 | the payload never exceeds `filesize`, and falls short only when the last read was empty |
| Server.NonPositiveSizeReadsNothing | server/server.py:70-101 | a declared size of zero or less passes the size check, the loop makes no read, and verification gets an empty payload |
| Server.PeerCloseEndsLoop | server/server.py:86-90 | a peer that closes early ends the loop on an empty read holding exactly what was sent, and the handler proceeds to verification |
| Server.Finish | server/server.py:99-123 | an undefined key raises NameError; an integrity failure is answered with "Integrity check failed" and writes nothing; a write stores the decrypted bytes; a success reply follows the write |
| Server.Deliver | server/server.py:83-123 | payload and verification together: replies never exceed the send budget, and a success reply is the last one sent and comes only after a store |
| Server.Transfer | server/server.py:77-123 | once the size check passes, the next read requested is the 16-byte salt |
| Server.Body | server/server.py:56-123 | the whole try body: a success reply is sent once, last, and only after the file is stored and writable |
| Server.Handle | server/server.py:53-137 | every exit except a read that blocks forever closes the connection and removes `client_id` from the registry; an error send that fails is suppressed; success is last and only after storing |
| Server.TokenRejectedEndsConnection | server/server.py:58-62 | a token that is not accepted gets one error reply and closes; the token read is the only read |
| Server.RejectionGoesThroughHandler | crypto/authetication.py:26-33 | `verify_token` raises instead of returning False, so the reply is "Token has expired" or "Invalid token", never "Authentication failed" |
| Server.OversizeEndsBeforeParams | server/server.py:70-75 | an oversize declaration is answered with "File too large" after two reads; no salt, iv, tag or payload is read |
| Server.CapItselfAccepted | server/server.py:70-80 | a declared size equal to the cap passes, and the next read is the salt |
| Server.HandleReflectsBody | server/server.py:125-137 | the handler reports the body's reads, and is left waiting exactly when the body blocked |
| Server.NewSupervisor | server/server.py:16-21 | the supervisor starts with a limiter of `RATE_LIMIT_REQUESTS` (10) per `RATE_LIMIT_PERIOD` (60) seconds, no history for any identity, and an empty registry |
| Server.FirstConnectionAdmitted | server/server.py:16-47 | a fresh server admits the first connection from any identity, registers it alone, and its limiter then holds that one admission and nothing for anyone else |
| Server.Admit | server/server.py:31-47 | a refused connection starts no handler and adds no registry entry; an admitted one is registered under its identity with its start time |
| Server.ServeConnection | server/server.py:31-47 | admission followed by a handler run: a refused connection leaves the registry unchanged; a finished handler leaves no entry for its identity |
| Client.ReadReply | client/client.py:53-55 | a reply is returned exactly when it decodes and Python's `"error" in response` is False for it, an array or a string included; an object carrying `error` raises with `response["error"]`; waiting happens exactly when no reply is pending and the server is open |
| Messages.Membership | client/client.py:54 | Python's `"error" in response`: a key of an object, an item of an array, a substring of a string, and a TypeError exactly for a number, boolean or null |
| Client.Field | client/client.py:90 | `response[key]`: the value exactly when the reply is an object holding `key`; KeyError on an object without it; TypeError on any other document |
| Client.ErrorCheckOnDocuments | client/client.py:54 | `[]` and `"ok"` pass the error check, an array or string holding "error" does not, and on a number, boolean or null the check itself raises |
| Client.TokenReplyWithoutErrorProceeds | client/client.py:52-78 | any answer to the token that passes the error check, `[]` and `"ok"` included, lets the client send the whole upload |
| Client.SendsStopAtBudget | client/client.py:62-96 | a connection that stops taking sends mid-upload ends `send_file` with that exception, after exactly the sends it took, in order |
| Client.Transmission | client/client.py:57-79 | after the token come the metadata declaring the ciphertext's length, then the salt, the iv and the tag, then the ciphertext in `ceil(len / 4096)` slices of 1 to 4096 bytes that concatenate back to it |
| Client.Chunks | client/client.py:74-79 | the chunks concatenate to the ciphertext; each is 1 to 4096 bytes; there are `ceil(len / 4096)` of them |
| Client.Login | client/client.py:15-27 | it sends the credentials; a token is kept exactly when the reply is an object with a `token` and no `error` |
| Client.LoginRaisesServerError | client/client.py:24-26 | an error reply makes `login` raise with its message and keep no token |
| Client.SendFile | client/client.py:29-96 | a missing file or one above the cap fails before anything is sent; the token goes first; what follows is a prefix of the metadata, salt, iv, tag and chunks of this file's encryption, and all of them unless a send failed; never more sends than the connection takes, and a failed send ends the call with exactly that many; no result is returned before everything is sent |
| Client.DeclaredSizeIsCiphertext | client/client.py:58-61 | the declared `filesize` is the ciphertext length: the padded length, 1 to 16 bytes above the file's length |
| Client.PayloadSlices | client/client.py:74-79 | once no send fails, the payload sends reassemble into the ciphertext, each is 1 to 4096 bytes, and their count is `ceil(len / 4096)` |
| Client.TokenErrorRaised | client/client.py:52-55 | an error answering the token raises before any metadata, parameter or payload is sent |
| Client.FinalReplyDecides | client/client.py:82-90 | a final error raises; otherwise the result is true exactly when `status` is "success"; a missing `status` raises KeyError |
| Protocol.SizeChecksDisagreeOnlyAtCap | client/client.py:40-44 | the client checks the plaintext and the server checks the ciphertext; they disagree on exactly one size: a file of exactly the cap passes the client and is refused by the server |
| Protocol.PayloadTakesSlices | server/server.py:86-92 | the server's loop takes the client's 4096-byte slices one read each and ends with the whole ciphertext |
| Protocol.UploadShape | client/client.py:46-47 | a file below the cap gives an envelope with 16/16/32-byte fields and a declared size within the cap |
| Protocol.ServerReachesVerification | server/server.py:56-98 | the server reads a well-formed upload completely, in the client's order, and reaches verification with exactly the envelope sent |
| Protocol.CorrectedServerStoresUpload | server/server.py:99-123 | with the key defect corrected, the server stores exactly the original plaintext and replies `{}` then success |
| Protocol.AsWrittenUploadRaisesNameError | server/server.py:100-106 | as written, a complete upload is read in full, then fails with "name 'key' is not defined" and stores nothing |
| Protocol.ClientCompletesUpload | client/client.py:50-90 | against the replies `{}` and success, the client sends the whole upload and returns True |
| Protocol.CorrectedUploadDelivers | client/client.py:50-90 | end to end, with the client's output as the server's input and the server's replies as the client's input: the file is stored as sent and the client returns True |
| Protocol.UndecodableMetadataRejected | server/server.py:64-65 | after an accepted token, a metadata chunk that does not decode is answered with the JSON error after the acknowledgement; nothing is stored and the connection closes |
| Protocol.CoalescedMetadataRejected | client/client.py:62-65 | when the metadata and the salt after it arrive as one chunk, the corrected handler answers with the JSON error and stores nothing |
| Protocol.ServerRefusesCapUpload | server/server.py:64-75 | whatever follows the token and a metadata declaring more than the cap, the handler answers "File too large" and closes without storing |
| Protocol.ClientAtCap | client/client.py:40-84 | a file at the cap answered by `{}` and "File too large": the client sends the token and metadata, then raises the server's error if every send goes through, or the lost connection if one fails first |
| Protocol.FileAtCapRefused | client/client.py:40-47 | end to end, a file of exactly the cap passes the client and is refused by the corrected server with "File too large", and the client never returns normally |
| Protocol.AsWrittenTokenDeadlock | client/client.py:52-55 | as written, the server accepts the token and waits for metadata while the client waits for an answer to its token; neither closes and the registry keeps the entry |
| Protocol.LoginRejectedByServer | client/client.py:22-27 | `login` against this server: the credentials are read as a token message without a token, and the client raises "Invalid token" |

## Left out

- Transport.Recv: a read never raises. It returns data, returns empty once the peer has closed, or blocks. On the server, a `recv` raising ConnectionResetError at server/server.py:58, 65, 78-80 or 88 would go through the handler at lines 125-132. On the client, one at client/client.py:24, 53 or 82 would be re-raised at lines 92-96. So neither Server.Handle nor Client.SendFile ever ends with a failed read.
- Sockets, `bind`, `listen`, `accept` and `create_connection`: the transport is a chunk sequence. On both sides a send fails only after a per-connection budget of successful sends, which stands for the peer going away.
- Client.Login: its one send is taken to succeed; `send_file`'s sends carry the budget.
- Module-level names: server/server.py never imports `time` or `Config`, client/client.py never imports `Config`, and server/server.py imports `crypto.authentication` while the file is crypto/authetication.py. As written, neither module loads, because the `Config.HOST` defaults are evaluated when the class is defined. The model takes these names as imported.
- Server.Admit: registers an admitted connection with its start time. With `time` missing, server/server.py:46 would raise NameError after the handler's thread has started, and lines 49-51 would re-raise it out of `start`.
- RateLimiter.IsAllowed: timestamps are exact reals. Python's `time.time()` values are floats, and `now - self.time_window` rounds, so a stamp within one ulp of the boundary may be kept or dropped differently.
- Threads, the limiter's lock and the registry race at server/server.py:43-47: a connection is admitted and served to completion before the next one; the lock only makes each `is_allowed` atomic.
- AES-256, HMAC-SHA256 and PBKDF2 internals, and constant-time tag comparison: these are library calls, represented by function values with the axioms of `Primitives.Sound`.
- JSON encoding and decoding: a codec required only to round-trip. A message is an object, an array, a string, or a scalar (number, boolean, null). Inside a message, JSON floats, booleans, arrays and nested objects are one `JOther` value.
- Server.ReadMetadata: every `filesize` that is not an integer is treated as raising TypeError at the size check. In Python a boolean compares as an integer. A float above the cap gets "File too large" at server/server.py:70. A float at most the cap passes the check. Then `recv` raises TypeError once the remaining size is a float below 4096, because `min(4096, x)` returns the float only then. The loop can end first: on an empty read, or by reaching the size exactly, as a declared `8192.0` read in two full chunks does. A float of zero or less skips the loop and goes straight to verification.
- Server.ExcText: the texts for malformed JSON, non-object messages, non-integer sizes and storage failures are stand-ins. The Python messages depend on the library.
- Encryption.TamperRejected: takes the tag mismatch as a hypothesis instead of deriving it from a flipped bit, because HMAC collision resistance cannot be stated as an axiom about a 32-byte output.
- `socket.timeout` at server/server.py:93-97: no timeout is ever set, so a stalled read is modelled as blocking forever.
- Token issuing and password hashing in crypto/authetication.py: `verify_token` is an oracle that accepts, refuses, or raises for an expired or invalid token.
- Logging, `tqdm` progress, `argparse` and `getpass`, and the file-existence check beyond "present or not": they do not affect the protocol.
- The written path `received_{filename}`: only whether it can be written is a parameter. The name is not sanitised in the code, and the model does not add sanitising.
- The partial `send` of Python sockets: each `send` is taken to deliver its whole buffer as one chunk.
- Protocol.CorrectedUploadDelivers: holds only when each client send arrives as a chunk of its own. TCP may merge consecutive sends, and the model never merges them by itself. Protocol.CoalescedMetadataRejected shows that merged metadata and salt make even the corrected handler refuse the upload. The same holds for Protocol.ServerReachesVerification, Protocol.CorrectedServerStoresUpload, Protocol.FileAtCapRefused and Protocol.ServerRefusesCapUpload. With the metadata and salt merged, the corrected server answers even a file at the cap with the JSON error instead of "File too large".

## Findings

| source | as written | input that shows it | evidently intended | confidence | as-written member | corrected member |
|---|---|---|---|---|---|---|
| server/server.py:101 | `verify_and_decrypt(key, ...)` reads a name that is never assigned, so every upload that reaches verification raises NameError and is answered with its text | any upload with an accepted token and a declared size within the cap | decrypt with a key derived from the client's password and the received salt | high (not executed) | Protocol.AsWrittenUploadRaisesNameError | Protocol.CorrectedServerStoresUpload |
| server/server.py:59-64 | an accepted token gets no reply, while the client blocks on `recv(1024)` for one (client/client.py:53), so both sides wait forever | any accepted token, with the client's metadata not yet sent | acknowledge an accepted token with `{}`, which the client accepts because it has no `error` | high (not executed) | Protocol.AsWrittenTokenDeadlock | Protocol.CorrectedUploadDelivers |

The corrected handler is `Server.Handle` with `Protocol.Corrected(key)`, which sets `ackToken` and supplies `key`. `Server.AsWritten()` is the code as written.

## Where the code and the protocol design differ

The model follows the code in each case:
- **Early close.** When the peer closes mid-payload, the code breaks out of the loop and verifies the short payload (`Server.PeerCloseEndsLoop`). There is no separate "transfer incomplete" outcome.
- **Token rejection.** A bad token is rejected by the exception `verify_token` raises, answered through the generic handler. The "Authentication failed" branch is not used (`Server.RejectionGoesThroughHandler`).
- **Login.** The server has no login endpoint. Its handler reads the credentials as a token message, so `login` always fails with "Invalid token" (`Protocol.LoginRejectedByServer`).
- **Client errors.** The client raises the same ValueError for an authentication rejection, an oversize file and any server error. They are not distinguished.
- **Status reply.** The server sends a final status only on success. Rejections send an error reply.
- **Size limit.** The size limit is applied to plaintext by the client and to ciphertext by the server (`Protocol.SizeChecksDisagreeOnlyAtCap`). A file of exactly the cap is therefore sent and then refused (`Protocol.FileAtCapRefused`).
- **Limiter boundary.** An entry exactly one window old survives eviction, so a call exactly on the boundary is refused (`RateLimiter.RecoveryAfterWindow`). The limiter's own test sleeps one second after its third call. Its oldest entry is then strictly older than the window unless all three calls read the same clock value and the sleep lasted exactly one second, which is the case `RateLimiter.BurstThenRecovery` states.

=== FILE: client.dfy ===
/**
  `SecureClient`: `login` and `send_file`, as pure functions of what the server
  answers. Randomness (the salt and iv `AESCipher` draws), the file system and
  the socket are parameters: the file's bytes or their absence, and the
  server's replies as an inbound stream. The result lists every chunk the
  client sends, in order, and how the call ended.
*/
module Client {
  import opened Octets
  import opened Wrappers
  import opened Messages
  import opened Transport
  import Primitives
  import Encryption
  import Pkcs7
  import Settings

  /** The slice size of the payload loop, `remaining_data[:4096]`. */
  const SendChunk: nat := 4096
  /** Every reply is read with `sock.recv(1024)`. */
  const ReplyBuffer: nat := 1024

  /** The exceptions `login` and `send_file` raise. */
  datatype ClientError =
    | FileNotFound                 // FileNotFoundError
    | FileTooLarge                 // ValueError("File too large")
    | ServerError(message: JValue) // ValueError(response["error"])
    | MalformedReply               // json.loads, or the UTF-8 decode before it, fails
    | TypeMismatch                 // TypeError: `in` or `[]` on a reply that is not an object
    | MissingField(key: string)    // KeyError on "token" or "status"
    | ConnectionLost               // BrokenPipeError or ConnectionResetError from `sock.send`

  /** How a call ended: with a value, with an exception, or blocked in a read forever. */
  datatype Progress<T> = Done(value: T) | Failed(error: ClientError) | Waiting

  /**
    One reply: `json.loads(sock.recv(1024).decode())`, then `if "error" in
    response: raise ValueError(response["error"])`. A reply that is not JSON
    fails; so does one on which the `in` test raises (a number, a boolean, null)
    or whose `error` lookup raises (an array or a string that contains
    "error"). An object carrying `error` raises with it, and every other
    document, an array or a string included, is returned.
  */
  function ReadReply(codec: Codec, replies: Inbound): (r: (Progress<Json>, Inbound))
    ensures r.0.Waiting? <==> replies.chunks == [] && !replies.peerClosed
    ensures (r.0.Failed? && r.0.error.ServerError?) <==>
      exists data, rest :: Recv(replies, ReplyBuffer) == Some((data, rest))
        && codec.decode(data).Some? && IsErrorReply(codec.decode(data).value)
    ensures r.0.Done? <==>
      exists data, rest :: Recv(replies, ReplyBuffer) == Some((data, rest))
        && codec.decode(data).Some? && Membership("error", codec.decode(data).value) == Some(false)
        && r.0 == Done(codec.decode(data).value)
    ensures r.0.Failed? && r.0.error.ServerError? ==>
      exists data, rest :: Recv(replies, ReplyBuffer) == Some((data, rest))
        && codec.decode(data).Some? && codec.decode(data).value.Obj?
        && r.0.error.message == codec.decode(data).value.fields["error"]
  {
    match Recv(replies, ReplyBuffer)
    case None => (Waiting, replies)
    case Some((data, rest)) =>
      match codec.decode(data)
      case None => (Failed(MalformedReply), rest)
      case Some(m) =>
        match Membership("error", m)
        case None => (Failed(TypeMismatch), rest)
        case Some(false) => (Done(m), rest)
        case Some(true) =>
          if m.Obj? then (Failed(ServerError(m.fields["error"])), rest)
          else (Failed(TypeMismatch), rest)
  }

  /** `response[key]`: KeyError on an object without `key`, TypeError on any other document. */
  function Field(m: Json, key: string): (r: Result<JValue, ClientError>)
    ensures r.Success? <==> m.Obj? && key in m.fields
    ensures r.Success? ==> r.value == m.fields[key]
    ensures r.Failure? ==> r.error == (if m.Obj? then MissingField(key) else TypeMismatch)
  {
    if !m.Obj? then Failure(TypeMismatch)
    else if key in m.fields then Success(m.fields[key])
    else Failure(MissingField(key))
  }

  /**
    Which documents get past the error check: an array or a string without
    "error" does, one that holds it does not, and a number, boolean or null
    makes the check itself raise.
  */
  lemma ErrorCheckOnDocuments()
    ensures Membership("error", Arr([])) == Some(false)
    ensures Membership("error", Text("ok")) == Some(false)
    ensures Membership("error", Arr([JStr("error")])) == Some(true)
    ensures Membership("error", Text("an error")) == Some(true)
    ensures Membership("error", Scalar) == None
  {
    assert !IsSubstring("error", "k");
    assert !IsSubstring("error", "ok");
    assert "an error"[3..] == "error";
    assert IsSubstring("error", "an error"[3..]);
    assert IsSubstring("error", "an error"[2..]);
    assert IsSubstring("error", "an error"[1..]);
  }

  /** `remaining_data[:4096]` slices taken until nothing remains. */
  function Chunks(data: Bytes): (cs: seq<Bytes>)
    ensures Concat(cs) == data
    ensures forall i :: 0 <= i < |cs| ==> 0 < |cs[i]| <= SendChunk
    ensures |cs| == (|data| + SendChunk - 1) / SendChunk
    decreases |data|
  {
    if data == [] then []
    else
      var n := Min(SendChunk, |data|);
      var cs := [data[..n]] + Chunks(data[n..]);
      assert cs[1..] == Chunks(data[n..]);
      cs
  }

  /** The result of `login`: what it sent and the token it keeps. */
  datatype LoginRun = LoginRun(sent: seq<Bytes>, token: Progress<JValue>)

  /**
    `login`: send the credentials, then keep the reply's `token` unless the reply
    carries an `error`, which is raised instead.
  */
  function Login(codec: Codec, username: string, password: string, replies: Inbound): (r: LoginRun)
    ensures r.sent == [codec.encode(CredentialsMessage(username, password))]
    ensures r.token.Done? <==>
      exists data, rest, fields :: Recv(replies, ReplyBuffer) == Some((data, rest))
        && codec.decode(data) == Some(Obj(fields)) && "error" !in fields && "token" in fields
        && r.token == Done(fields["token"])
    ensures r.token.Waiting? <==> replies.chunks == [] && !replies.peerClosed
  {
    var sent := [codec.encode(CredentialsMessage(username, password))];
    match ReadReply(codec, replies).0
    case Waiting => LoginRun(sent, Waiting)
    case Failed(e) => LoginRun(sent, Failed(e))
    case Done(m) =>
      match Field(m, "token")
      case Success(token) => LoginRun(sent, Done(token))
      case Failure(e) => LoginRun(sent, Failed(e))
  }

  /** A reply carrying `error` makes `login` raise with that message and keep no token. */
  lemma LoginRaisesServerError(codec: Codec, username: string, password: string, msg: string, closed: bool)
    requires Faithful(codec)
    requires |codec.encode(ErrorReply(msg))| <= ReplyBuffer
    ensures Login(codec, username, password, Inbound([codec.encode(ErrorReply(msg))], closed)).token
            == Failed(ServerError(JStr(msg)))
  {
    var reply := codec.encode(ErrorReply(msg));
    assert reply != [];
    assert Recv(Inbound([reply], closed), ReplyBuffer) == Some((reply, Inbound([], closed)));
  }

  /**
    What follows an accepted token: the metadata declaring the ciphertext's
    length, the salt, the iv, the tag and the ciphertext in slices.
  */
  function Transmission(codec: Codec, filename: string, e: Encryption.Envelope): (t: seq<Bytes>)
    ensures |t| == 4 + (|e.ciphertext| + SendChunk - 1) / SendChunk
    ensures t[0] == codec.encode(MetadataMessage(filename, |e.ciphertext|))
    ensures t[1] == e.salt && t[2] == e.iv && t[3] == e.mac
    ensures Concat(t[4..]) == e.ciphertext
    ensures forall i :: 4 <= i < |t| ==> 0 < |t[i]| <= SendChunk
  {
    [codec.encode(MetadataMessage(filename, |e.ciphertext|)), e.salt, e.iv, e.mac] + Chunks(e.ciphertext)
  }

  /** The result of `send_file`: what it sent and whether it reports success. */
  datatype SendRun = SendRun(sent: seq<Bytes>, result: Progress<bool>)

  /**
    `send_file` with the session's `token`, the file's bytes (None: no such
    file), the encryption password and the salt and iv the cipher draws.
    `accepted` is how many sends the connection takes before one raises, which
    stands for the server having closed its end; the exception propagates.
  */
  function SendFile(p: Primitives.Primitives, codec: Codec, token: JValue, file: Option<Bytes>,
                    filename: string, password: Bytes, salt: Bytes, iv: Bytes, accepted: nat,
                    replies: Inbound)
    : (r: SendRun)
    requires |salt| == Primitives.SaltBytes && |iv| == Primitives.IvBytes
    ensures file.None? ==> r == SendRun([], Failed(FileNotFound))
    ensures file.Some? && |file.value| > Settings.MaxFileSize ==> r == SendRun([], Failed(FileTooLarge))
    ensures file.Some? && |file.value| <= Settings.MaxFileSize && accepted == 0 ==>
      r == SendRun([], Failed(ConnectionLost))
    ensures |r.sent| <= accepted
    ensures r.result == Failed(ConnectionLost) ==> |r.sent| == accepted
    ensures r.sent != [] ==> r.sent[0] == codec.encode(TokenMessage(token))
    ensures |r.sent| > 1 ==>
      && file.Some? && |file.value| <= Settings.MaxFileSize
      && r.sent[1..] <= Transmission(codec, filename,
           Encryption.Encrypt(p, Encryption.NewCipher(p, password, salt), iv, file.value))
    ensures |r.sent| > 1 && r.result != Failed(ConnectionLost) ==>
      && file.Some?
      && r.sent[1..] == Transmission(codec, filename,
           Encryption.Encrypt(p, Encryption.NewCipher(p, password, salt), iv, file.value))
    ensures r.result.Done? ==> |r.sent| > 1
  {
    match file
    case None => SendRun([], Failed(FileNotFound))
    case Some(data) =>
      if |data| > Settings.MaxFileSize then SendRun([], Failed(FileTooLarge))
      else if accepted == 0 then SendRun([], Failed(ConnectionLost))
      else
        var e := Encryption.Encrypt(p, Encryption.NewCipher(p, password, salt), iv, data);
        var first := [codec.encode(TokenMessage(token))];
        var (ack, rest) := ReadReply(codec, replies);
        match ack
        case Waiting => SendRun(first, Waiting)
        case Failed(err) => SendRun(first, Failed(err))
        case Done(_) =>
          var t := Transmission(codec, filename, e);
          if accepted - 1 < |t| then
            var sent := first + t[..accepted - 1];
            assert sent[1..] == t[..accepted - 1];
            SendRun(sent, Failed(ConnectionLost))
          else
            var sent := first + t;
            assert sent[1..] == t;
            match ReadReply(codec, rest).0
            case Waiting => SendRun(sent, Waiting)
            case Failed(err) => SendRun(sent, Failed(err))
            case Done(m) =>
              match Field(m, "status")
              case Success(status) => SendRun(sent, Done(status == JStr("success")))
              case Failure(err) => SendRun(sent, Failed(err))
  }

  /**
    The declared `filesize` is the ciphertext's length: under the crypto axioms
    it is the padded length, a multiple of 16 and 1 to 16 bytes more than the
    file itself.
  */
  lemma DeclaredSizeIsCiphertext(p: Primitives.Primitives, codec: Codec, token: JValue, data: Bytes,
                                 filename: string, password: Bytes, salt: Bytes, iv: Bytes, accepted: nat,
                                 replies: Inbound)
    requires Primitives.Sound(p)
    requires |salt| == Primitives.SaltBytes && |iv| == Primitives.IvBytes
    ensures var r := SendFile(p, codec, token, Some(data), filename, password, salt, iv, accepted, replies);
            var size := |Pkcs7.Pad(data)|;
            |r.sent| > 1 ==>
              && r.sent[1] == codec.encode(MetadataMessage(filename, size))
              && size % Pkcs7.BlockBytes == 0 && |data| < size <= |data| + Pkcs7.BlockBytes
  {
    var r := SendFile(p, codec, token, Some(data), filename, password, salt, iv, accepted, replies);
    if |r.sent| > 1 {
      assert r.sent[1] == r.sent[1..][0];
    }
  }

  /**
    Once the client gets past the token and no send fails, the payload slices
    reassemble into the ciphertext, each is 1 to 4096 bytes, and there are
    ceil(len / 4096) of them.
  */
  lemma PayloadSlices(p: Primitives.Primitives, codec: Codec, token: JValue, data: Bytes,
                      filename: string, password: Bytes, salt: Bytes, iv: Bytes, accepted: nat, replies: Inbound)
    requires |salt| == Primitives.SaltBytes && |iv| == Primitives.IvBytes
    ensures var r := SendFile(p, codec, token, Some(data), filename, password, salt, iv, accepted, replies);
            var e := Encryption.Encrypt(p, Encryption.NewCipher(p, password, salt), iv, data);
            |r.sent| > 1 && r.result != Failed(ConnectionLost) ==>
              && |r.sent| == 5 + (|e.ciphertext| + SendChunk - 1) / SendChunk
              && Concat(r.sent[5..]) == e.ciphertext
              && forall i :: 5 <= i < |r.sent| ==> 0 < |r.sent[i]| <= SendChunk
  {
    var r := SendFile(p, codec, token, Some(data), filename, password, salt, iv, accepted, replies);
    var e := Encryption.Encrypt(p, Encryption.NewCipher(p, password, salt), iv, data);
    if |r.sent| > 1 && r.result != Failed(ConnectionLost) {
      assert r.sent[5..] == Chunks(e.ciphertext);
    }
  }

  /**
    A reply carrying `error` after the token ends `send_file` with that message
    raised, before any metadata, parameter or payload is sent.
  */
  lemma TokenErrorRaised(p: Primitives.Primitives, codec: Codec, token: JValue, data: Bytes,
                         filename: string, password: Bytes, salt: Bytes, iv: Bytes, accepted: nat,
                         replies: Inbound, reply: Bytes, rest: Inbound, fields: map<string, JValue>)
    requires |salt| == Primitives.SaltBytes && |iv| == Primitives.IvBytes
    requires |data| <= Settings.MaxFileSize && accepted > 0
    requires Recv(replies, ReplyBuffer) == Some((reply, rest))
    requires codec.decode(reply) == Some(Obj(fields)) && "error" in fields
    ensures SendFile(p, codec, token, Some(data), filename, password, salt, iv, accepted, replies)
            == SendRun([codec.encode(TokenMessage(token))], Failed(ServerError(fields["error"])))
  {
  }

  /**
    Any answer to the token on which the error check comes out false lets the
    upload go ahead, not only an object: `[]` and `"ok"` do too.
  */
  lemma TokenReplyWithoutErrorProceeds(p: Primitives.Primitives, codec: Codec, token: JValue, data: Bytes,
                                       filename: string, password: Bytes, salt: Bytes, iv: Bytes,
                                       accepted: nat, replies: Inbound, reply: Bytes, rest: Inbound, m: Json)
    requires |salt| == Primitives.SaltBytes && |iv| == Primitives.IvBytes
    requires |data| <= Settings.MaxFileSize
    requires Recv(replies, ReplyBuffer) == Some((reply, rest))
    requires codec.decode(reply) == Some(m) && Membership("error", m) == Some(false)
    requires accepted > |Transmission(codec, filename,
                           Encryption.Encrypt(p, Encryption.NewCipher(p, password, salt), iv, data))|
    ensures var r := SendFile(p, codec, token, Some(data), filename, password, salt, iv, accepted, replies);
            r.sent == [codec.encode(TokenMessage(token))]
                      + Transmission(codec, filename,
                          Encryption.Encrypt(p, Encryption.NewCipher(p, password, salt), iv, data))
  {
  }

  /**
    A connection that stops taking sends part-way through the upload ends it
    with the exception: exactly the sends it took went out, in order.
  */
  lemma SendsStopAtBudget(p: Primitives.Primitives, codec: Codec, token: JValue, data: Bytes,
                          filename: string, password: Bytes, salt: Bytes, iv: Bytes,
                          accepted: nat, replies: Inbound, reply: Bytes, rest: Inbound, m: Json)
    requires |salt| == Primitives.SaltBytes && |iv| == Primitives.IvBytes
    requires |data| <= Settings.MaxFileSize
    requires Recv(replies, ReplyBuffer) == Some((reply, rest))
    requires codec.decode(reply) == Some(m) && Membership("error", m) == Some(false)
    requires 0 < accepted <= |Transmission(codec, filename,
                                Encryption.Encrypt(p, Encryption.NewCipher(p, password, salt), iv, data))|
    ensures var all := [codec.encode(TokenMessage(token))]
                       + Transmission(codec, filename,
                           Encryption.Encrypt(p, Encryption.NewCipher(p, password, salt), iv, data));
            SendFile(p, codec, token, Some(data), filename, password, salt, iv, accepted, replies)
            == SendRun(all[..accepted], Failed(ConnectionLost))
  {
    var t := Transmission(codec, filename, Encryption.Encrypt(p, Encryption.NewCipher(p, password, salt), iv, data));
    var first := [codec.encode(TokenMessage(token))];
    assert first + t[..accepted - 1] == (first + t)[..accepted];
  }

  /**
    The final reply decides the result: an `error` is raised with its message,
    and otherwise `send_file` returns true exactly when `status` is "success".
  */
  lemma FinalReplyDecides(p: Primitives.Primitives, codec: Codec, token: JValue, data: Bytes,
                          filename: string, password: Bytes, salt: Bytes, iv: Bytes, accepted: nat,
                          replies: Inbound, ack: Bytes, rest: Inbound, ackReply: Json,
                          last: Bytes, rest': Inbound, fields: map<string, JValue>)
    requires |salt| == Primitives.SaltBytes && |iv| == Primitives.IvBytes
    requires |data| <= Settings.MaxFileSize
    requires accepted > |Transmission(codec, filename,
                           Encryption.Encrypt(p, Encryption.NewCipher(p, password, salt), iv, data))|
    requires Recv(replies, ReplyBuffer) == Some((ack, rest))
    requires codec.decode(ack) == Some(ackReply) && Membership("error", ackReply) == Some(false)
    requires Recv(rest, ReplyBuffer) == Some((last, rest'))
    requires codec.decode(last) == Some(Obj(fields))
    ensures var r := SendFile(p, codec, token, Some(data), filename, password, salt, iv, accepted, replies).result;
            && ("error" in fields ==> r == Failed(ServerError(fields["error"])))
            && ("error" !in fields && "status" in fields ==> (r == Done(true) <==> fields["status"] == JStr("success")))
            && ("error" !in fields && "status" !in fields ==> r == Failed(MissingField("status")))
  {
  }
}

=== FILE: encryption.dfy ===
/**
  `AESCipher`: a password-derived key fixed per instance together with its salt,
  encryption as pad, then AES-256-CBC, then HMAC over the ciphertext, and the
  verify-before-decrypt gate.
*/
module Encryption {
  import opened Octets
  import opened Wrappers
  import opened Primitives
  import Pkcs7

  /** One `AESCipher` instance: the salt drawn at construction and the key derived from it. */
  datatype AesCipher = AesCipher(salt: Bytes, key: Bytes)

  /** The four values `encrypt` returns, in the order it returns them. */
  datatype Envelope = Envelope(salt: Bytes, iv: Bytes, ciphertext: Bytes, mac: Bytes)

  /** The ValueErrors `verify_and_decrypt` can raise. */
  datatype CryptoError =
    | IntegrityCheckFailed  // the HMAC did not verify
    | InvalidKeySize        // AES-256 refuses a key that is not 32 bytes
    | InvalidIvSize         // CBC refuses an iv that is not 16 bytes
    | NotBlockAligned       // the CBC decryptor's finalize on a ragged ciphertext
    | InvalidPadding        // the PKCS#7 unpadder

  /** `_derive_key`: PBKDF2 with SHA-256, 32 bytes of output and 100000 iterations. */
  function DeriveKey(p: Primitives, password: Bytes, salt: Bytes): (key: Bytes)
    ensures Sound(p) ==> |key| == KeyBytes
  {
    p.pbkdf2Sha256(password, salt, KeyBytes, KdfIterations)
  }

  /**
    `AESCipher.__init__`; the 16 random bytes of `os.urandom(16)` are a parameter.
    The password is taken already encoded (`password.encode()`).
  */
  function NewCipher(p: Primitives, password: Bytes, salt: Bytes): (c: AesCipher)
    requires |salt| == SaltBytes
    ensures c.salt == salt
    ensures c.key == DeriveKey(p, password, salt)
    ensures Sound(p) ==> |c.key| == KeyBytes
  {
    AesCipher(salt, DeriveKey(p, password, salt))
  }

  /** `_create_hmac`: the tag under the instance key. */
  function CreateHmac(p: Primitives, c: AesCipher, data: Bytes): (mac: Bytes)
    ensures Sound(p) ==> |mac| == MacBytes
  {
    p.hmacSha256(c.key, data)
  }

  /**
    `encrypt`; the iv of `os.urandom(16)` is a parameter. The salt returned is the
    instance's, the tag covers the ciphertext (encrypt-then-MAC) and, under the
    axioms, the ciphertext is as long as the padded plaintext.
  */
  function Encrypt(p: Primitives, c: AesCipher, iv: Bytes, data: Bytes): (e: Envelope)
    requires |iv| == IvBytes
    ensures e.salt == c.salt && e.iv == iv
    ensures e.mac == CreateHmac(p, c, e.ciphertext)
    ensures Sound(p) && |c.key| == KeyBytes ==>
      && |e.ciphertext| == |Pkcs7.Pad(data)|
      && |e.ciphertext| % Pkcs7.BlockBytes == 0
      && |data| < |e.ciphertext| <= |data| + Pkcs7.BlockBytes
      && |e.mac| == MacBytes
  {
    var padded := Pkcs7.Pad(data);
    var ciphertext := p.aesCbcEncrypt(c.key, iv, padded);
    Envelope(c.salt, iv, ciphertext, CreateHmac(p, c, ciphertext))
  }

  /**
    `verify_and_decrypt`: the tag is checked before anything else, so a ciphertext
    whose tag does not verify is never decrypted; afterwards the AES and CBC
    parameter checks, decryption and unpadding may each still raise.
  */
  function VerifyAndDecrypt(p: Primitives, key: Bytes, iv: Bytes, ciphertext: Bytes, mac: Bytes)
    : (r: Result<Bytes, CryptoError>)
    ensures p.hmacSha256(key, ciphertext) != mac ==> r == Failure(IntegrityCheckFailed)
    ensures r.Success? ==>
      && p.hmacSha256(key, ciphertext) == mac
      && |key| == KeyBytes && |iv| == IvBytes
      && Pkcs7.Pad(r.value) == p.aesCbcDecrypt(key, iv, ciphertext)
  {
    if p.hmacSha256(key, ciphertext) != mac then Failure(IntegrityCheckFailed)
    else if |key| != KeyBytes then Failure(InvalidKeySize)
    else if |iv| != IvBytes then Failure(InvalidIvSize)
    else if |ciphertext| % Pkcs7.BlockBytes != 0 then Failure(NotBlockAligned)
    else match Pkcs7.Unpad(p.aesCbcDecrypt(key, iv, ciphertext))
      case Some(plain) => Success(plain)
      case None => Failure(InvalidPadding)
  }

  /** Round trip: what `encrypt` produces, `verify_and_decrypt` under the instance key restores. */
  lemma EncryptRoundTrip(p: Primitives, password: Bytes, salt: Bytes, iv: Bytes, data: Bytes)
    requires Sound(p)
    requires |salt| == SaltBytes && |iv| == IvBytes
    ensures var c := NewCipher(p, password, salt);
            var e := Encrypt(p, c, iv, data);
            VerifyAndDecrypt(p, c.key, e.iv, e.ciphertext, e.mac) == Success(data)
  {
    var c := NewCipher(p, password, salt);
    var e := Encrypt(p, c, iv, data);
    var padded := Pkcs7.Pad(data);
    assert p.aesCbcDecrypt(c.key, iv, e.ciphertext) == padded;
    Pkcs7.UnpadPad(data);
  }

  /**
    Tamper detection: a ciphertext or tag substituted for the ones `encrypt`
    produced is rejected as an integrity failure whenever the tag does not match
    the substituted ciphertext (appending bytes, as the test does, included), and
    nothing is decrypted.
  */
  lemma TamperRejected(p: Primitives, c: AesCipher, iv: Bytes, data: Bytes, ciphertext': Bytes, mac': Bytes)
    requires |iv| == IvBytes
    requires CreateHmac(p, c, ciphertext') != mac'
    ensures VerifyAndDecrypt(p, c.key, iv, ciphertext', mac') == Failure(IntegrityCheckFailed)
  {
  }

  /** Every call on one instance returns the same salt, whatever the iv and the data. */
  lemma SaltFixedPerInstance(p: Primitives, c: AesCipher, iv1: Bytes, iv2: Bytes, d1: Bytes, d2: Bytes)
    requires |iv1| == IvBytes && |iv2| == IvBytes
    ensures Encrypt(p, c, iv1, d1).salt == Encrypt(p, c, iv2, d2).salt == c.salt
  {
  }

  /**
    The receiving side needs no cipher instance: the key it derives from the
    password and the salt carried in the envelope opens the envelope.
  */
  lemma ReceiverRederivesKey(p: Primitives, password: Bytes, salt: Bytes, iv: Bytes, data: Bytes)
    requires Sound(p)
    requires |salt| == SaltBytes && |iv| == IvBytes
    ensures var e := Encrypt(p, NewCipher(p, password, salt), iv, data);
            VerifyAndDecrypt(p, DeriveKey(p, password, e.salt), e.iv, e.ciphertext, e.mac) == Success(data)
  {
    EncryptRoundTrip(p, password, salt, iv, data);
  }
}

=== FILE: messages.dfy ===
/**
  The JSON messages both sides exchange, taken as already-parsed records. The
  encoding (`json.dumps(...).encode()`) and decoding (`json.loads(data.decode())`)
  are function values of a `Codec`; only their round trip is relied on.
*/
module Messages {
  import opened Octets
  import opened Wrappers

  /** A JSON value as far as the protocol inspects it. */
  datatype JValue =
    | JStr(s: string)
    | JInt(i: int)
    | JNull
    | JOther  // floats, booleans, arrays, nested objects

  /**
    A decoded message. Only an object has fields; for the other documents the
    model keeps what a Python `in` test can look at: the items of an array and
    the text of a string.
  */
  datatype Json =
    | Obj(fields: map<string, JValue>)
    | Arr(items: seq<JValue>)
    | Text(text: string)
    | Scalar  // a number, a boolean or null

  datatype Codec = Codec(encode: Json -> Bytes, decode: Bytes -> Option<Json>)

  /** Decoding inverts encoding, and an empty read never decodes. */
  ghost predicate Faithful(codec: Codec)
  {
    && codec.decode([]) == None
    && forall m :: codec.decode(codec.encode(m)) == Some(m)
  }

  /** `{"error": msg}`. */
  function ErrorReply(msg: string): Json
  {
    Obj(map["error" := JStr(msg)])
  }

  /** `{"status": "success"}`. */
  function SuccessReply(): Json
  {
    Obj(map["status" := JStr("success")])
  }

  /** `{}`, the acknowledgement of an accepted token. */
  function EmptyReply(): Json
  {
    Obj(map[])
  }

  /** `{"username": ..., "password": ...}`. */
  function CredentialsMessage(username: string, password: string): Json
  {
    Obj(map["username" := JStr(username), "password" := JStr(password)])
  }

  /** `{"token": ...}`; a client that never logged in sends `null`. */
  function TokenMessage(token: JValue): Json
  {
    Obj(map["token" := token])
  }

  /** `{"filename": ..., "filesize": ...}`. */
  function MetadataMessage(filename: string, filesize: int): Json
  {
    Obj(map["filename" := JStr(filename), "filesize" := JInt(filesize)])
  }

  /** `k` occurs in `t` as a contiguous run: it is a prefix of `t` or of one of its suffixes. */
  predicate IsSubstring(k: string, t: string)
    decreases |t|
  {
    k <= t || (t != [] && IsSubstring(k, t[1..]))
  }

  /**
    Python's `key in doc` on a decoded document: a key of an object, an item of
    an array, a substring of a string. None where Python raises TypeError, as it
    does for a number, a boolean or null.
  */
  function Membership(key: string, m: Json): (r: Option<bool>)
    ensures r.None? <==> m.Scalar?
    ensures m.Obj? ==> r == Some(key in m.fields)
    ensures m.Arr? ==> r == Some(exists i :: 0 <= i < |m.items| && m.items[i] == JStr(key))
    ensures m.Text? ==> r == Some(IsSubstring(key, m.text))
  {
    match m
    case Obj(fields) => Some(key in fields)
    case Arr(items) => Some(JStr(key) in items)
    case Text(t) => Some(IsSubstring(key, t))
    case Scalar => None
  }

  /** True when the message is an object carrying an `"error"` key. */
  predicate IsErrorReply(m: Json)
  {
    m.Obj? && "error" in m.fields
  }

  /** Helper: the success reply is distinguishable from every other reply the server sends. */
  lemma SuccessReplyDistinct(msg: string)
    ensures ErrorReply(msg) != SuccessReply()
    ensures EmptyReply() != SuccessReply()
  {
    assert "status" !in ErrorReply(msg).fields;
    assert "status" !in EmptyReply().fields;
  }
}

=== FILE: octets.dfy ===
/** Byte strings, as the Python code handles them (`bytes`). */
module Octets {

  type byte = bv8

  type Bytes = seq<byte>

  /** The bytes of a sequence of chunks laid end to end. */
  function Concat(chunks: seq<Bytes>): Bytes
  {
    if chunks == [] then [] else chunks[0] + Concat(chunks[1..])
  }

  lemma {:induction false} ConcatAppend(a: seq<Bytes>, b: seq<Bytes>)
    ensures Concat(a + b) == Concat(a) + Concat(b)
    decreases |a|
  {
    if a == [] {
      assert a + b == b;
    } else {
      assert (a + b)[1..] == a[1..] + b;
      ConcatAppend(a[1..], b);
    }
  }
}

=== FILE: pkcs7.dfy ===
/**
  PKCS#7 padding over a 128-bit block (section 6.3 of RFC 5652), as used by
  `padding.PKCS7(128)` in the envelope: the padder appends k copies of the byte k,
  1 <= k <= 16, so that the length becomes a multiple of 16; the unpadder accepts
  exactly the outputs of the padder and raises ValueError("Invalid padding bytes.")
  on everything else.
*/
module Pkcs7 {
  import opened Octets
  import opened Wrappers

  /** 128 bits. */
  const BlockBytes: nat := 16

  /** Number of padding bytes added to an input of length n. */
  function PadCount(n: nat): (k: nat)
    ensures 1 <= k <= BlockBytes
    ensures (n + k) % BlockBytes == 0
  {
    BlockBytes - n % BlockBytes
  }

  /** The padder: `padder.update(data) + padder.finalize()`. */
  function Pad(data: Bytes): (padded: Bytes)
    ensures |padded| % BlockBytes == 0
    ensures |data| < |padded| <= |data| + BlockBytes
    ensures padded[..|data|] == data
    ensures forall i :: |data| <= i < |padded| ==> padded[i] as int == |padded| - |data|
  {
    var k := PadCount(|data|);
    data + seq(k, _ => k as byte)
  }

  /** True when the last `k` bytes of `block` all equal `k`, the last byte included. */
  predicate TrailerIs(block: Bytes, k: nat)
    requires k <= |block|
  {
    forall i :: |block| - k <= i < |block| ==> block[i] as int == k
  }

  /**
    The unpadder: `unpadder.update(data) + unpadder.finalize()`. It fails (None,
    standing for the ValueError) when the input is not a positive multiple of the
    block, when the last byte is 0 or greater than 16, or when the trailing bytes
    disagree with the last one.
  */
  function Unpad(data: Bytes): (r: Option<Bytes>)
    ensures r.Some? ==> Pad(r.value) == data
    ensures |data| == 0 || |data| % BlockBytes != 0 ==> r.None?
  {
    if |data| == 0 || |data| % BlockBytes != 0 then None
    else
      var k := data[|data| - 1] as int;
      if k == 0 || k > BlockBytes then None
      else if TrailerIs(data, k) then
        var body := data[..|data| - k];
        assert PadCount(|body|) == k;
        assert data == body + seq(k, _ => k as byte);
        Some(body)
      else None
  }

  /** Unpadding undoes padding, for every byte string. */
  lemma UnpadPad(data: Bytes)
    ensures Unpad(Pad(data)) == Some(data)
  {
    var padded := Pad(data);
    var k := |padded| - |data|;
    assert padded[|padded| - 1] as int == k;
    assert TrailerIs(padded, k);
    assert padded[..|padded| - k] == data;
  }

  /** A byte string unpads successfully exactly when it is the padding of something. */
  lemma UnpadSucceedsIffPadded(data: Bytes)
    ensures Unpad(data).Some? <==> exists x :: Pad(x) == data
  {
    if exists x :: Pad(x) == data {
      var x :| Pad(x) == data;
      UnpadPad(x);
    }
  }

  /** Padding is injective: distinct inputs give distinct padded blocks. */
  lemma PadInjective(x: Bytes, y: Bytes)
    requires Pad(x) == Pad(y)
    ensures x == y
  {
    UnpadPad(x);
    UnpadPad(y);
  }
}

=== FILE: primitives.dfy ===
/**
  The cryptographic library calls the envelope depends on (AES-256 in CBC mode,
  HMAC-SHA256, PBKDF2-HMAC-SHA256). Their internals are not modelled: each is a
  function value, and `Sound` collects the only facts the model relies on.
*/
module Primitives {
  import opened Octets
  import Pkcs7

  /** AES-256 key length. */
  const KeyBytes: nat := 32
  /** CBC initialisation vector length (one AES block). */
  const IvBytes: nat := 16
  /** Length of the per-instance key-derivation salt. */
  const SaltBytes: nat := 16
  /** HMAC-SHA256 digest length. */
  const MacBytes: nat := 32
  /** PBKDF2 iteration count. */
  const KdfIterations: nat := 100000

  datatype Primitives = Primitives(
    /** AES-256-CBC encryption: (key, iv, plaintext) to ciphertext. */
    aesCbcEncrypt: (Bytes, Bytes, Bytes) -> Bytes,
    /** AES-256-CBC decryption: (key, iv, ciphertext) to plaintext. */
    aesCbcDecrypt: (Bytes, Bytes, Bytes) -> Bytes,
    /** HMAC-SHA256: (key, message) to tag. */
    hmacSha256: (Bytes, Bytes) -> Bytes,
    /** PBKDF2-HMAC-SHA256: (password, salt, output length, iterations) to key. */
    pbkdf2Sha256: (Bytes, Bytes, nat, nat) -> Bytes
  )

  /**
    The axioms: under a 32-byte key and a 16-byte iv, CBC preserves the length of
    block-aligned input and decryption inverts encryption; HMAC-SHA256 yields 32
    bytes; PBKDF2 yields as many bytes as asked for. Determinism of every
    primitive is built in, since each is a function.
  */
  ghost predicate Sound(p: Primitives)
  {
    && (forall key, iv, plain ::
          |key| == KeyBytes && |iv| == IvBytes && |plain| % Pkcs7.BlockBytes == 0 ==>
            |p.aesCbcEncrypt(key, iv, plain)| == |plain|
            && p.aesCbcDecrypt(key, iv, p.aesCbcEncrypt(key, iv, plain)) == plain)
    && (forall key, msg :: |p.hmacSha256(key, msg)| == MacBytes)
    && (forall password, salt, n, iterations :: |p.pbkdf2Sha256(password, salt, n, iterations)| == n)
  }

  /** A trivially insecure instance, used only to show that the axioms are consistent. */
  function Transparent(): Primitives
  {
    Primitives(
      (key, iv, plain) => plain,
      (key, iv, cipher) => cipher,
      (key, msg) => seq(MacBytes, _ => 0 as byte),
      (password: Bytes, salt: Bytes, n: nat, iterations: nat) => seq(n, _ => 0 as byte))
  }

  lemma SoundIsSatisfiable()
    ensures exists p :: Sound(p)
  {
    assert Sound(Transparent());
  }
}

=== FILE: protocol.dfy ===
/**
  The client and the server in one conversation. Each side is a function of
  what the other sends, so a conversation is stated by feeding each side the
  other's output: the server reads what the client sent, and the client reads
  the encodings of the server's replies.

  With the handler as written the upload cannot complete: the client waits for
  an answer to its token that the server never sends, and a server fed the whole
  upload anyway stops at the undefined `key`. With the token acknowledged and a
  key that matches the client's, the file arrives intact.
*/
module Protocol {
  import opened Octets
  import opened Wrappers
  import opened Messages
  import opened Transport
  import Primitives
  import Encryption
  import Pkcs7
  import Settings
  import Server
  import Client

  /** The server with both corrections: it acknowledges tokens and holds `key`. */
  function Corrected(key: Bytes): Server.HandlerVariant
  {
    Server.HandlerVariant(Settings.MaxFileSize, Some(key), true)
  }

  /** The envelope the client builds for `data` from `password` and its salt and iv. */
  function Upload(p: Primitives.Primitives, password: Bytes, salt: Bytes, iv: Bytes, data: Bytes): Encryption.Envelope
    requires |salt| == Primitives.SaltBytes && |iv| == Primitives.IvBytes
  {
    Encryption.Encrypt(p, Encryption.NewCipher(p, password, salt), iv, data)
  }

  /**
    The client checks the plaintext against the cap and the server checks the
    declared ciphertext length. Since padding rounds up to the next multiple of
    16 and the cap is one, the two checks disagree on exactly one size: a file of
    exactly the cap passes the client and is refused by the server.
  */
  lemma SizeChecksDisagreeOnlyAtCap(data: Bytes)
    requires |data| <= Settings.MaxFileSize
    ensures |Pkcs7.Pad(data)| > Settings.MaxFileSize <==> |data| == Settings.MaxFileSize
  {
  }

  /** The server's payload loop takes the client's 4096-byte slices one read each. */
  lemma {:induction false} PayloadTakesSlices(t: Inbound, filesize: int, data: Bytes, rest: Bytes)
    requires |data| + |rest| == filesize
    requires t.chunks == Client.Chunks(rest)
    ensures var l := Server.ReceivePayload(t, filesize, data);
            && l.waiting.None? && l.data == data + rest && l.rest == t.(chunks := [])
    decreases |rest|
  {
    if rest != [] {
      var n := Min(Client.SendChunk, |rest|);
      assert Client.Chunks(rest) == [rest[..n]] + Client.Chunks(rest[n..]);
      var t' := t.(chunks := Client.Chunks(rest[n..]));
      assert Recv(t, n) == Some((rest[..n], t'));
      PayloadTakesSlices(t', filesize, data + rest[..n], rest[n..]);
      assert data + rest[..n] + rest[n..] == data + rest;
    }
  }

  /**
    The envelope of a file below the cap has the sizes the server's reads
    expect, and its declared size passes the server's check.
  */
  lemma UploadShape(p: Primitives.Primitives, password: Bytes, salt: Bytes, iv: Bytes, data: Bytes)
    requires Primitives.Sound(p)
    requires |salt| == Primitives.SaltBytes && |iv| == Primitives.IvBytes
    requires |data| < Settings.MaxFileSize
    ensures var e := Upload(p, password, salt, iv, data);
            && e.salt == salt && e.iv == iv
            && |e.salt| == Server.SaltRead && |e.iv| == Server.IvRead && |e.mac| == Server.MacRead
            && |e.ciphertext| == |Pkcs7.Pad(data)| <= Settings.MaxFileSize
  {
    SizeChecksDisagreeOnlyAtCap(data);
  }

  /** The handler's reads so far take whole chunks: what it has left is `rest`. */
  predicate Consumed(c: Server.Conn, c': Server.Conn, rest: seq<Bytes>)
  {
    && c'.inbound == c.inbound.(chunks := rest)
    && c'.stored == c.stored
  }

  /** An accepted token, delivered as one chunk, passes authentication. */
  lemma TokenStep(cfg: Server.HandlerVariant, env: Server.Env, c: Server.Conn, token: JValue, rest: seq<Bytes>)
    requires Faithful(env.codec) && env.verifyToken(token) == Server.TokenAccepted
    requires |env.codec.encode(TokenMessage(token))| <= Server.MessageBuffer
    requires c.inbound.chunks == [env.codec.encode(TokenMessage(token))] + rest
    requires c.sendBudget > 0
    ensures var a := Server.Authenticate(cfg, env, c);
            && a.Next? && Consumed(c, a.conn, rest)
            && a.conn.sent == c.sent + (if cfg.ackToken then [EmptyReply()] else [])
            && a.conn.sendBudget == c.sendBudget - (if cfg.ackToken then 1 else 0)
  {
    var tok := env.codec.encode(TokenMessage(token));
    assert tok != [];
    assert Recv(c.inbound, Server.MessageBuffer) == Some((tok, c.inbound.(chunks := rest)));
  }

  /** Metadata declaring a size within the cap, delivered as one chunk, passes the size check. */
  lemma MetadataStep(cfg: Server.HandlerVariant, env: Server.Env, c: Server.Conn, filename: string, size: int,
                     rest: seq<Bytes>)
    requires Faithful(env.codec) && size <= cfg.maxFileSize
    requires |env.codec.encode(MetadataMessage(filename, size))| <= Server.MessageBuffer
    requires c.inbound.chunks == [env.codec.encode(MetadataMessage(filename, size))] + rest
    ensures var m := Server.ReadMetadata(cfg, env, c);
            && m.Next? && Consumed(c, m.conn, rest)
            && m.value == Server.Metadata(JStr(filename), size)
            && m.conn.sent == c.sent && m.conn.sendBudget == c.sendBudget
  {
    var meta := env.codec.encode(MetadataMessage(filename, size));
    assert meta != [];
    assert Recv(c.inbound, Server.MessageBuffer) == Some((meta, c.inbound.(chunks := rest)));
  }

  /** Salt, iv and tag delivered as chunks of their exact sizes are read whole. */
  lemma ParamsStep(c: Server.Conn, salt: Bytes, iv: Bytes, mac: Bytes, rest: seq<Bytes>)
    requires |salt| == Server.SaltRead && |iv| == Server.IvRead && |mac| == Server.MacRead
    requires c.inbound.chunks == [salt, iv, mac] + rest
    ensures var q := Server.ReadParams(c);
            && q.Next? && Consumed(c, q.conn, rest)
            && q.value == Server.Params(salt, iv, mac)
            && q.conn.sent == c.sent && q.conn.sendBudget == c.sendBudget
  {
    var r1 := c.inbound.(chunks := [iv, mac] + rest);
    var r2 := c.inbound.(chunks := [mac] + rest);
    assert c.inbound.chunks[1..] == r1.chunks;
    assert r1.chunks[1..] == r2.chunks;
    assert Recv(c.inbound, Server.SaltRead) == Some((salt, r1));
    assert Recv(r1, Server.IvRead) == Some((iv, r2));
    assert Recv(r2, Server.MacRead) == Some((mac, c.inbound.(chunks := rest)));
  }

  /**
    A server fed a well-formed upload whose token it accepts reads the token,
    the metadata, the salt, iv and tag and the whole ciphertext, and reaches the
    verification step with them and nothing left to read; before that it has
    sent only the acknowledgement, if it sends one.
  */
  lemma ServerReachesVerification(cfg: Server.HandlerVariant, env: Server.Env, token: JValue, filename: string,
                                  e: Encryption.Envelope, peerClosed: bool, budget: nat)
    returns (cf: Server.Conn)
    requires Faithful(env.codec) && env.verifyToken(token) == Server.TokenAccepted
    requires |env.codec.encode(TokenMessage(token))| <= Server.MessageBuffer
    requires |env.codec.encode(MetadataMessage(filename, |e.ciphertext|))| <= Server.MessageBuffer
    requires |e.ciphertext| <= cfg.maxFileSize
    requires |e.salt| == Server.SaltRead && |e.iv| == Server.IvRead && |e.mac| == Server.MacRead
    requires budget > 0
    ensures cf.inbound == Inbound([], peerClosed) && cf.stored.None?
    ensures cf.sent == (if cfg.ackToken then [EmptyReply()] else [])
    ensures cf.sendBudget == budget - |cf.sent|
    ensures var c0 := Server.Conn(Inbound([env.codec.encode(TokenMessage(token))]
                                          + Client.Transmission(env.codec, filename, e), peerClosed),
                                  budget, [], [], None);
            var s := Server.Finish(cfg, env, cf, Server.Metadata(JStr(filename), |e.ciphertext|),
                                   Server.Params(e.salt, e.iv, e.mac), e.ciphertext);
            Server.Body(cfg, env, c0) == (s.exit, s.conn)
  {
    var codec := env.codec;
    var tok := codec.encode(TokenMessage(token));
    var meta := codec.encode(MetadataMessage(filename, |e.ciphertext|));
    var slices := Client.Chunks(e.ciphertext);
    var c0 := Server.Conn(Inbound([tok] + Client.Transmission(codec, filename, e), peerClosed),
                          budget, [], [], None);
    assert c0.inbound.chunks == [tok] + ([meta] + ([e.salt, e.iv, e.mac] + slices));

    TokenStep(cfg, env, c0, token, [meta] + ([e.salt, e.iv, e.mac] + slices));
    var a := Server.Authenticate(cfg, env, c0);
    MetadataStep(cfg, env, a.conn, filename, |e.ciphertext|, [e.salt, e.iv, e.mac] + slices);
    var m := Server.ReadMetadata(cfg, env, a.conn);
    ParamsStep(m.conn, e.salt, e.iv, e.mac, slices);
    var q := Server.ReadParams(m.conn);
    PayloadTakesSlices(q.conn.inbound, |e.ciphertext|, [], e.ciphertext);
    var l := Server.ReceivePayload(q.conn.inbound, |e.ciphertext|, []);
    assert [] + e.ciphertext == e.ciphertext;
    cf := q.conn.(inbound := l.rest, recvs := q.conn.recvs + l.log);
    assert Server.Transfer(cfg, env, m.conn, m.value) == Server.Deliver(cfg, env, q.conn, m.value, q.value);
    assert Server.Body(cfg, env, c0) == Server.Transfer(cfg, env, m.conn, m.value);
  }

  /**
    Under the corrected handler and a key derived like the client's, the upload
    is stored as the original plaintext under the given file name, the replies
    are the acknowledgement and then the success reply, and the connection
    closes.
  */
  lemma CorrectedServerStoresUpload(env: Server.Env, token: JValue, data: Bytes, filename: string,
                                    password: Bytes, salt: Bytes, iv: Bytes,
                                    clientId: string, registry: map<string, real>, peerClosed: bool, budget: nat)
    requires Primitives.Sound(env.prims) && Faithful(env.codec)
    requires env.verifyToken(token) == Server.TokenAccepted && env.canWrite(JStr(filename))
    requires |salt| == Primitives.SaltBytes && |iv| == Primitives.IvBytes
    requires |data| < Settings.MaxFileSize
    requires |env.codec.encode(TokenMessage(token))| <= Server.MessageBuffer
    requires |env.codec.encode(MetadataMessage(filename, |Pkcs7.Pad(data)|))| <= Server.MessageBuffer
    requires budget >= 2
    ensures var e := Upload(env.prims, password, salt, iv, data);
            var key := Encryption.DeriveKey(env.prims, password, salt);
            var o := Server.Handle(Corrected(key), env, clientId, registry,
                                   Inbound([env.codec.encode(TokenMessage(token))]
                                           + Client.Transmission(env.codec, filename, e), peerClosed),
                                   budget);
            && o.sent == [EmptyReply(), SuccessReply()]
            && o.stored == Some(Server.StoredFile(JStr(filename), data))
            && o.Closed() && o.registry == registry - {clientId}
  {
    var p := env.prims;
    var e := Upload(p, password, salt, iv, data);
    var key := Encryption.DeriveKey(p, password, salt);
    UploadShape(p, password, salt, iv, data);
    var cf := ServerReachesVerification(Corrected(key), env, token, filename, e, peerClosed, budget);
    Encryption.EncryptRoundTrip(p, password, salt, iv, data);
    assert Encryption.VerifyAndDecrypt(p, key, e.iv, e.ciphertext, e.mac) == Success(data);
  }

  /**
    The same upload against the handler as written: every byte of it is read,
    then verification raises NameError on `key`, its text ("name 'key' is not
    defined") is sent back and nothing is stored.
  */
  lemma AsWrittenUploadRaisesNameError(env: Server.Env, token: JValue, data: Bytes, filename: string,
                                       password: Bytes, salt: Bytes, iv: Bytes,
                                       clientId: string, registry: map<string, real>, peerClosed: bool, budget: nat)
    requires Primitives.Sound(env.prims) && Faithful(env.codec)
    requires env.verifyToken(token) == Server.TokenAccepted
    requires |salt| == Primitives.SaltBytes && |iv| == Primitives.IvBytes
    requires |data| < Settings.MaxFileSize
    requires |env.codec.encode(TokenMessage(token))| <= Server.MessageBuffer
    requires |env.codec.encode(MetadataMessage(filename, |Pkcs7.Pad(data)|))| <= Server.MessageBuffer
    requires budget >= 1
    ensures var e := Upload(env.prims, password, salt, iv, data);
            var o := Server.Handle(Server.AsWritten(), env, clientId, registry,
                                   Inbound([env.codec.encode(TokenMessage(token))]
                                           + Client.Transmission(env.codec, filename, e), peerClosed),
                                   budget);
            && o.sent == [ErrorReply(Server.ExcText(Server.KeyUndefined))]
            && o.stored.None? && o.Closed()
  {
    var e := Upload(env.prims, password, salt, iv, data);
    UploadShape(env.prims, password, salt, iv, data);
    var cfg := Server.AsWritten();
    assert cfg.maxFileSize == Settings.MaxFileSize && cfg.key.None?;
    var cf := ServerReachesVerification(cfg, env, token, filename, e, peerClosed, budget);
    var c0 := Server.Conn(Inbound([env.codec.encode(TokenMessage(token))]
                                  + Client.Transmission(env.codec, filename, e), peerClosed),
                          budget, [], [], None);
    var s := Server.Finish(cfg, env, cf, Server.Metadata(JStr(filename), |e.ciphertext|),
                           Server.Params(e.salt, e.iv, e.mac), e.ciphertext);
    assert s == Server.Stop(Server.Raised(Server.KeyUndefined), cf);
    assert Server.Body(cfg, env, c0) == (Server.Raised(Server.KeyUndefined), cf);

  }

  /**
    The client against replies `{}` then `{"status": "success"}`: it sends the
    token, then the whole transmission, and returns True.
  */
  lemma ClientCompletesUpload(p: Primitives.Primitives, codec: Codec, token: JValue, data: Bytes,
                              filename: string, password: Bytes, salt: Bytes, iv: Bytes, accepted: nat,
                              serverClosed: bool)
    requires Faithful(codec)
    requires |salt| == Primitives.SaltBytes && |iv| == Primitives.IvBytes
    requires |data| <= Settings.MaxFileSize
    requires accepted > |Client.Transmission(codec, filename, Upload(p, password, salt, iv, data))|
    requires |codec.encode(EmptyReply())| <= Client.ReplyBuffer
    requires |codec.encode(SuccessReply())| <= Client.ReplyBuffer
    ensures var r := Client.SendFile(p, codec, token, Some(data), filename, password, salt, iv, accepted,
                                     Inbound([codec.encode(EmptyReply()), codec.encode(SuccessReply())], serverClosed));
            && r.result == Client.Done(true)
            && r.sent == [codec.encode(TokenMessage(token))]
                         + Client.Transmission(codec, filename, Upload(p, password, salt, iv, data))
  {
    assert codec.encode(EmptyReply()) != [] && codec.encode(SuccessReply()) != [];
    assert "status" in SuccessReply().fields;
  }

  /**
    The corrected conversation end to end: the client's output is the server's
    input, the server's replies are the client's input, the file is stored as
    sent and the client reports success.
  */
  lemma CorrectedUploadDelivers(env: Server.Env, token: JValue, data: Bytes, filename: string,
                                password: Bytes, salt: Bytes, iv: Bytes,
                                clientId: string, registry: map<string, real>, budget: nat, accepted: nat)
    requires Primitives.Sound(env.prims) && Faithful(env.codec)
    requires env.verifyToken(token) == Server.TokenAccepted && env.canWrite(JStr(filename))
    requires |salt| == Primitives.SaltBytes && |iv| == Primitives.IvBytes
    requires |data| < Settings.MaxFileSize
    requires |env.codec.encode(TokenMessage(token))| <= Server.MessageBuffer
    requires |env.codec.encode(MetadataMessage(filename, |Pkcs7.Pad(data)|))| <= Server.MessageBuffer
    requires |env.codec.encode(EmptyReply())| <= Client.ReplyBuffer
    requires |env.codec.encode(SuccessReply())| <= Client.ReplyBuffer
    requires budget >= 2
    requires accepted > |Client.Transmission(env.codec, filename, Upload(env.prims, password, salt, iv, data))|
    ensures var codec := env.codec;
            var key := Encryption.DeriveKey(env.prims, password, salt);
            var replies := [codec.encode(EmptyReply()), codec.encode(SuccessReply())];
            var run := Client.SendFile(env.prims, codec, token, Some(data), filename, password, salt, iv, accepted,
                                       Inbound(replies, true));
            var o := Server.Handle(Corrected(key), env, clientId, registry, Inbound(run.sent, false), budget);
            && |o.sent| == |replies| && (forall i :: 0 <= i < |o.sent| ==> codec.encode(o.sent[i]) == replies[i])
            && o.Closed()
            && o.stored == Some(Server.StoredFile(JStr(filename), data))
            && run.result == Client.Done(true)
  {
    ClientCompletesUpload(env.prims, env.codec, token, data, filename, password, salt, iv, accepted, true);
    CorrectedServerStoresUpload(env, token, data, filename, password, salt, iv, clientId, registry, false, budget);
  }

  /**
    The conversation as written deadlocks after the token: the server accepts
    it and blocks reading the metadata without having sent anything, and the
    client, having sent only the token, blocks waiting for the answer to it.
    Neither side closes, and the client's identity stays in the registry.
  */
  lemma AsWrittenTokenDeadlock(env: Server.Env, token: JValue, data: Bytes, filename: string,
                               password: Bytes, salt: Bytes, iv: Bytes,
                               clientId: string, registry: map<string, real>, budget: nat, accepted: nat)
    requires Faithful(env.codec) && env.verifyToken(token) == Server.TokenAccepted
    requires |salt| == Primitives.SaltBytes && |iv| == Primitives.IvBytes
    requires |data| <= Settings.MaxFileSize && accepted > 0
    requires |env.codec.encode(TokenMessage(token))| <= Server.MessageBuffer
    ensures var run := Client.SendFile(env.prims, env.codec, token, Some(data), filename, password, salt, iv, accepted,
                                       Inbound([], false));
            var o := Server.Handle(Server.AsWritten(), env, clientId, registry, Inbound(run.sent, false), budget);
            && run.sent == [env.codec.encode(TokenMessage(token))] && run.result == Client.Waiting
            && o.sent == [] && o.waiting == Some(Server.MessageBuffer)
            && o.registry == registry && o.stored.None?
  {
    var tok := env.codec.encode(TokenMessage(token));
    assert tok != [];
    var c0 := Server.Conn(Inbound([tok], false), budget, [], [], None);
    var a := Server.Authenticate(Server.AsWritten(), env, c0);
    assert a.Next? && a.conn.inbound == Inbound([], false);
  }

  /** A first chunk that does not decode, read whole, ends the metadata phase with the JSON error. */
  lemma UndecodableMetadataStep(cfg: Server.HandlerVariant, env: Server.Env, c: Server.Conn, chunk: Bytes,
                                rest: seq<Bytes>)
    requires 0 < |chunk| <= Server.MessageBuffer && env.codec.decode(chunk) == None
    requires c.inbound.chunks == [chunk] + rest
    ensures var m := Server.ReadMetadata(cfg, env, c);
            && m.Stop? && m.exit == Server.Raised(Server.MalformedMessage)
            && Consumed(c, m.conn, rest) && m.conn.sent == c.sent && m.conn.sendBudget == c.sendBudget
  {
    assert Recv(c.inbound, Server.MessageBuffer) == Some((chunk, c.inbound.(chunks := rest)));
  }

  /**
    After an accepted token, a metadata chunk that does not decode makes the
    corrected handler answer with the JSON error after its acknowledgement,
    store nothing and close.
  */
  lemma UndecodableMetadataRejected(env: Server.Env, key: Bytes, token: JValue, chunk: Bytes, rest: seq<Bytes>,
                                    clientId: string, registry: map<string, real>, peerClosed: bool, budget: nat)
    requires Faithful(env.codec) && env.verifyToken(token) == Server.TokenAccepted
    requires |env.codec.encode(TokenMessage(token))| <= Server.MessageBuffer
    requires 0 < |chunk| <= Server.MessageBuffer && env.codec.decode(chunk) == None
    requires budget >= 2
    ensures var o := Server.Handle(Corrected(key), env, clientId, registry,
                                   Inbound([env.codec.encode(TokenMessage(token)), chunk] + rest, peerClosed),
                                   budget);
            && o.sent == [EmptyReply(), ErrorReply(Server.ExcText(Server.MalformedMessage))]
            && o.stored.None? && o.Closed()
  {
    var cfg := Corrected(key);
    var c0 := Server.Conn(Inbound([env.codec.encode(TokenMessage(token)), chunk] + rest, peerClosed),
                          budget, [], [], None);
    TokenStep(cfg, env, c0, token, [chunk] + rest);
    var a := Server.Authenticate(cfg, env, c0);
    UndecodableMetadataStep(cfg, env, a.conn, chunk, rest);
    var m := Server.ReadMetadata(cfg, env, a.conn);
    assert Server.Body(cfg, env, c0) == (m.exit, m.conn);
  }

  /**
    The end-to-end lemmas deliver every send as a chunk of its own, which TCP
    does not promise. When the metadata and the salt that follows it arrive
    together, the handler reads both in its `recv(1024)`; `json.loads` then
    meets bytes after the document (or bytes that are not UTF-8) and fails, so
    even the corrected handler answers with an error and stores nothing.
  */
  lemma CoalescedMetadataRejected(env: Server.Env, key: Bytes, token: JValue, filename: string,
                                  e: Encryption.Envelope, clientId: string, registry: map<string, real>,
                                  peerClosed: bool, budget: nat)
    requires Faithful(env.codec) && env.verifyToken(token) == Server.TokenAccepted
    requires |env.codec.encode(TokenMessage(token))| <= Server.MessageBuffer
    requires var meta := env.codec.encode(MetadataMessage(filename, |e.ciphertext|));
             |meta + e.salt| <= Server.MessageBuffer && env.codec.decode(meta + e.salt) == None
    requires budget >= 2
    ensures var t := Client.Transmission(env.codec, filename, e);
            var o := Server.Handle(Corrected(key), env, clientId, registry,
                                   Inbound([env.codec.encode(TokenMessage(token)), t[0] + t[1]] + t[2..], peerClosed),
                                   budget);
            && o.sent == [EmptyReply(), ErrorReply(Server.ExcText(Server.MalformedMessage))]
            && o.stored.None? && o.Closed()
  {
    var t := Client.Transmission(env.codec, filename, e);
    assert t[0] != [];
    UndecodableMetadataRejected(env, key, token, t[0] + t[1], t[2..], clientId, registry, peerClosed, budget);
  }

  /**
    The server's side of a file at the cap: whatever the client manages to
    send after the token and the metadata, the handler answers the declared
    size with "File too large" and closes, having read nothing more.
  */
  lemma ServerRefusesCapUpload(cfg: Server.HandlerVariant, env: Server.Env, token: JValue, filename: string, size: int,
                               sent: seq<Bytes>, clientId: string, registry: map<string, real>, budget: nat)
    requires Faithful(env.codec) && env.verifyToken(token) == Server.TokenAccepted
    requires size > cfg.maxFileSize
    requires |env.codec.encode(TokenMessage(token))| <= Server.MessageBuffer
    requires |env.codec.encode(MetadataMessage(filename, size))| <= Server.MessageBuffer
    requires |sent| >= 2 && sent[0] == env.codec.encode(TokenMessage(token))
    requires sent[1] == env.codec.encode(MetadataMessage(filename, size))
    requires budget >= 2
    ensures var o := Server.Handle(cfg, env, clientId, registry, Inbound(sent, false), budget);
            && o.sent == (if cfg.ackToken then [EmptyReply()] else []) + [ErrorReply("File too large")]
            && o.stored.None? && o.Closed()
  {
    var rest1 := Inbound(sent[1..], false);
    var rest2 := Inbound(sent[2..], false);
    assert sent[0] != [] && sent[1] != [];
    assert Recv(Inbound(sent, false), Server.MessageBuffer) == Some((sent[0], rest1));
    assert sent[1..][1..] == sent[2..];
    assert Recv(rest1, Server.MessageBuffer) == Some((sent[1], rest2));
    Server.OversizeEndsBeforeParams(cfg, env, clientId, registry, Inbound(sent, false), budget,
                                    sent[0], rest1, TokenMessage(token).fields,
                                    sent[1], rest2, MetadataMessage(filename, size).fields);
  }

  /**
    The client's side of a file at the cap, answered by `{}` and then "File
    too large": it sends at least the token and the metadata, and raises the
    server's error when every send goes through, or the lost connection when
    one fails first.
  */
  lemma ClientAtCap(p: Primitives.Primitives, codec: Codec, token: JValue, data: Bytes, filename: string,
                    password: Bytes, salt: Bytes, iv: Bytes, accepted: nat)
    requires Faithful(codec)
    requires |salt| == Primitives.SaltBytes && |iv| == Primitives.IvBytes
    requires |data| <= Settings.MaxFileSize
    requires |codec.encode(EmptyReply())| <= Client.ReplyBuffer
    requires |codec.encode(ErrorReply("File too large"))| <= Client.ReplyBuffer
    requires accepted >= 2
    ensures var run := Client.SendFile(p, codec, token, Some(data), filename, password, salt, iv, accepted,
                                       Inbound([codec.encode(EmptyReply()), codec.encode(ErrorReply("File too large"))],
                                               true));
            var t := Client.Transmission(codec, filename, Upload(p, password, salt, iv, data));
            && |run.sent| >= 2 && run.sent[..2] == ([codec.encode(TokenMessage(token))] + t)[..2]
            && (accepted > |t| ==> run.result == Client.Failed(Client.ServerError(JStr("File too large"))))
            && (accepted <= |t| ==> run.result == Client.Failed(Client.ConnectionLost))
  {
    var ack := codec.encode(EmptyReply());
    var refusal := codec.encode(ErrorReply("File too large"));
    assert ack != [] && refusal != [];
    var replies := Inbound([ack, refusal], true);
    assert Recv(replies, Client.ReplyBuffer) == Some((ack, Inbound([refusal], true)));
    assert Membership("error", EmptyReply()) == Some(false);
    var t := Client.Transmission(codec, filename, Upload(p, password, salt, iv, data));
    var all := [codec.encode(TokenMessage(token))] + t;
    if accepted > |t| {
      assert Recv(Inbound([refusal], true), Client.ReplyBuffer) == Some((refusal, Inbound([], true)));
      assert "error" in ErrorReply("File too large").fields;
    } else {
      Client.SendsStopAtBudget(p, codec, token, data, filename, password, salt, iv, accepted, replies,
                               ack, Inbound([refusal], true), EmptyReply());
    }
  }

  /**
    A file of exactly the cap, end to end: the client lets it through and the
    corrected server refuses its declared size with "File too large" and
    closes. The client never returns: it raises the server's error when it
    manages to send everything, and the lost connection when a send fails first.
  */
  lemma FileAtCapRefused(env: Server.Env, key: Bytes, token: JValue, data: Bytes, filename: string,
                         password: Bytes, salt: Bytes, iv: Bytes,
                         clientId: string, registry: map<string, real>, budget: nat, accepted: nat)
    requires Primitives.Sound(env.prims) && Faithful(env.codec)
    requires env.verifyToken(token) == Server.TokenAccepted
    requires |salt| == Primitives.SaltBytes && |iv| == Primitives.IvBytes
    requires |data| == Settings.MaxFileSize
    requires |env.codec.encode(TokenMessage(token))| <= Server.MessageBuffer
    requires |env.codec.encode(MetadataMessage(filename, |Pkcs7.Pad(data)|))| <= Server.MessageBuffer
    requires |env.codec.encode(EmptyReply())| <= Client.ReplyBuffer
    requires |env.codec.encode(ErrorReply("File too large"))| <= Client.ReplyBuffer
    requires budget >= 2 && accepted >= 2
    ensures var codec := env.codec;
            var replies := [codec.encode(EmptyReply()), codec.encode(ErrorReply("File too large"))];
            var run := Client.SendFile(env.prims, codec, token, Some(data), filename, password, salt, iv, accepted,
                                       Inbound(replies, true));
            var o := Server.Handle(Corrected(key), env, clientId, registry, Inbound(run.sent, false), budget);
            var t := Client.Transmission(codec, filename, Upload(env.prims, password, salt, iv, data));
            && o.sent == [EmptyReply(), ErrorReply("File too large")] && o.stored.None? && o.Closed()
            && (accepted > |t| ==> run.result == Client.Failed(Client.ServerError(JStr("File too large"))))
            && (accepted <= |t| ==> run.result == Client.Failed(Client.ConnectionLost))
  {
    var codec := env.codec;
    var p := env.prims;
    var e := Upload(p, password, salt, iv, data);
    var t := Client.Transmission(codec, filename, e);
    SizeChecksDisagreeOnlyAtCap(data);
    var size := |Pkcs7.Pad(data)|;
    assert |e.ciphertext| == size > Settings.MaxFileSize;
    ClientAtCap(p, codec, token, data, filename, password, salt, iv, accepted);
    var replies := [codec.encode(EmptyReply()), codec.encode(ErrorReply("File too large"))];
    var run := Client.SendFile(p, codec, token, Some(data), filename, password, salt, iv, accepted,
                               Inbound(replies, true));
    assert run.sent[0] == run.sent[..2][0] && run.sent[1] == run.sent[..2][1];
    ServerRefusesCapUpload(Corrected(key), env, token, filename, size, run.sent, clientId, registry, budget);
  }

  /**
    `login` against this server: the credentials arrive where the handler
    expects a token, the missing token is invalid to `verify_token` as written,
    and the client raises with "Invalid token" and never obtains a token.
  */
  lemma LoginRejectedByServer(env: Server.Env, username: string, password: string,
                              clientId: string, registry: map<string, real>, budget: nat)
    requires Faithful(env.codec) && Server.RaisesOnFailure(env.verifyToken)
    requires |env.codec.encode(CredentialsMessage(username, password))| <= Server.MessageBuffer
    requires |env.codec.encode(ErrorReply(Server.ExcText(Server.InvalidToken)))| <= Client.ReplyBuffer
    requires budget >= 1
    ensures var invalid := Server.ExcText(Server.InvalidToken);
            var login := Client.Login(env.codec, username, password,
                                      Inbound([env.codec.encode(ErrorReply(invalid))], true));
            var o := Server.Handle(Server.AsWritten(), env, clientId, registry, Inbound(login.sent, false), budget);
            && o.sent == [ErrorReply(invalid)] && o.Closed()
            && login.token == Client.Failed(Client.ServerError(JStr(invalid)))
  {
    var cred := env.codec.encode(CredentialsMessage(username, password));
    var fields := CredentialsMessage(username, password).fields;
    assert cred != [];
    assert Server.TokenOf(fields) == JNull;
    Server.TokenRejectedEndsConnection(Server.AsWritten(), env, clientId, registry, Inbound([cred], false), budget,
                                       cred, Inbound([], false), fields);
    Client.LoginRaisesServerError(env.codec, username, password, Server.ExcText(Server.InvalidToken), true);
  }

}

=== FILE: rate_limiter.dfy ===
/**
  `RateLimiter`: a sliding-window admission counter keyed by client identity.
  Each identity owns a list of the timestamps of its admitted requests; a call
  first drops the entries older than the window from the front of that list,
  then refuses when the survivors reach the cap, and otherwise records `now`.
  The clock is a parameter and the lock is not modelled: it only makes each call
  atomic, and the model's calls are sequential.
*/
module RateLimiter {

  /** `self.max_requests`, `self.time_window` and the `defaultdict(list)` of timestamps. */
  datatype Limiter = Limiter(maxRequests: int, timeWindow: int, requests: map<string, seq<real>>)

  /** The outcome of `is_allowed`: the answer and the limiter's state afterwards. */
  datatype Decision = Decision(allowed: bool, limiter: Limiter)

  /** `RateLimiter.__init__`. */
  function NewLimiter(maxRequests: int, timeWindow: int): (l: Limiter)
    ensures l.maxRequests == maxRequests && l.timeWindow == timeWindow
    ensures forall id :: History(l, id) == []
  {
    Limiter(maxRequests, timeWindow, map[])
  }

  /** `self.requests[client_id]`: a missing identity reads as the empty list. */
  function History(l: Limiter, id: string): seq<real>
  {
    if id in l.requests then l.requests[id] else []
  }

  /**
    The eviction loop: pop the front while it is strictly older than `cutoff`.
    What survives is a suffix, its first entry is not older than `cutoff`, and
    everything dropped was.
  */
  function Evict(ts: seq<real>, cutoff: real): (kept: seq<real>)
    ensures |kept| <= |ts| && kept == ts[|ts| - |kept|..]
    ensures kept == [] || kept[0] >= cutoff
    ensures forall i :: 0 <= i < |ts| - |kept| ==> ts[i] < cutoff
  {
    if ts != [] && ts[0] < cutoff then Evict(ts[1..], cutoff) else ts
  }

  /** `is_allowed(client_id)` called at time `now`. */
  function IsAllowed(l: Limiter, id: string, now: real): (d: Decision)
    ensures d.limiter.maxRequests == l.maxRequests && d.limiter.timeWindow == l.timeWindow
    ensures id in d.limiter.requests
    ensures d.limiter.requests == l.requests[id := d.limiter.requests[id]]
    ensures d.allowed <==> |Evict(History(l, id), now - l.timeWindow as real)| < l.maxRequests
    ensures d.allowed ==>
      d.limiter.requests[id] == Evict(History(l, id), now - l.timeWindow as real) + [now]
    ensures !d.allowed ==>
      d.limiter.requests[id] == Evict(History(l, id), now - l.timeWindow as real)
  {
    var kept := Evict(History(l, id), now - l.timeWindow as real);
    if |kept| >= l.maxRequests then
      Decision(false, l.(requests := l.requests[id := kept]))
    else
      Decision(true, l.(requests := l.requests[id := kept + [now]]))
  }

  /** The most entries one identity may hold (a negative cap admits nothing). */
  function Cap(l: Limiter): nat
  {
    if l.maxRequests < 0 then 0 else l.maxRequests
  }

  /** No identity holds more timestamps than the cap. */
  ghost predicate Bounded(l: Limiter)
  {
    forall id :: id in l.requests ==> |l.requests[id]| <= Cap(l)
  }

  predicate Sorted(ts: seq<real>)
  {
    forall i, j :: 0 <= i < j < |ts| ==> ts[i] <= ts[j]
  }

  /** A list in ascending order recording nothing later than `now`. */
  predicate StampedBy(ts: seq<real>, now: real)
  {
    Sorted(ts) && forall i :: 0 <= i < |ts| ==> ts[i] <= now
  }

  /** Every identity's list is in ascending order and records nothing later than `now`. */
  ghost predicate Chronological(l: Limiter, now: real)
  {
    forall id :: id in l.requests ==> StampedBy(l.requests[id], now)
  }

  /** The cap is an invariant: every call keeps each list within it. */
  lemma IsAllowedKeepsBound(l: Limiter, id: string, now: real)
    requires Bounded(l)
    ensures Bounded(IsAllowed(l, id, now).limiter)
  {
    var d := IsAllowed(l, id, now);
    var kept := Evict(History(l, id), now - l.timeWindow as real);
    assert |History(l, id)| <= Cap(l);
    assert |d.limiter.requests[id]| <= Cap(l);
    forall other | other in d.limiter.requests
      ensures |d.limiter.requests[other]| <= Cap(d.limiter)
    {
      if other != id {
        assert d.limiter.requests[other] == l.requests[other];
      }
    }
  }

  /**
    With a clock that never runs backwards, each list stays in ascending order,
    which is what makes evicting from the front alone sufficient.
  */
  lemma IsAllowedKeepsOrder(l: Limiter, id: string, earlier: real, now: real)
    requires earlier <= now
    requires Chronological(l, earlier)
    ensures Chronological(IsAllowed(l, id, now).limiter, now)
  {
    var d := IsAllowed(l, id, now);
    var h := History(l, id);
    var kept := Evict(h, now - l.timeWindow as real);
    assert StampedBy(h, earlier);
    SuffixStamped(h, kept, earlier, now);
    if d.allowed {
      AppendStamped(kept, now);
    }
    forall other | other in d.limiter.requests
      ensures StampedBy(d.limiter.requests[other], now)
    {
      if other != id {
        assert d.limiter.requests[other] == l.requests[other];
        StampedLater(l.requests[other], earlier, now);
      }
    }
  }

  lemma StampedLater(ts: seq<real>, earlier: real, now: real)
    requires earlier <= now && StampedBy(ts, earlier)
    ensures StampedBy(ts, now)
  {
  }

  lemma SuffixStamped(ts: seq<real>, suffix: seq<real>, earlier: real, now: real)
    requires earlier <= now && StampedBy(ts, earlier)
    requires |suffix| <= |ts| && suffix == ts[|ts| - |suffix|..]
    ensures StampedBy(suffix, now)
  {
    assert forall i :: 0 <= i < |suffix| ==> suffix[i] == ts[|ts| - |suffix| + i];
  }

  lemma AppendStamped(ts: seq<real>, now: real)
    requires StampedBy(ts, now)
    ensures StampedBy(ts + [now], now)
  {
  }

  /** Eviction from a sorted list leaves only entries inside the window. */
  lemma {:induction false} EvictSortedInWindow(ts: seq<real>, cutoff: real)
    requires Sorted(ts)
    ensures forall i :: 0 <= i < |Evict(ts, cutoff)| ==> Evict(ts, cutoff)[i] >= cutoff
    decreases |ts|
  {
    if ts != [] && ts[0] < cutoff {
      EvictSortedInWindow(ts[1..], cutoff);
    }
  }

  /**
    After a call, every timestamp kept for the caller lies inside the window ending
    at `now`; an entry exactly `time_window` old is kept, since eviction is strict.
  */
  lemma IsAllowedKeepsWindow(l: Limiter, id: string, earlier: real, now: real)
    requires l.timeWindow >= 0 && earlier <= now
    requires Chronological(l, earlier)
    ensures Within(IsAllowed(l, id, now).limiter.requests[id], now - l.timeWindow as real, now)
  {
    var cutoff := now - l.timeWindow as real;
    var h := History(l, id);
    assert StampedBy(h, earlier);
    EvictWithin(h, cutoff, earlier, now);
    if IsAllowed(l, id, now).allowed {
      AppendWithin(Evict(h, cutoff), cutoff, now);
    }
  }

  /** What eviction keeps from a list stamped by `earlier` lies between the cutoff and `now`. */
  lemma EvictWithin(h: seq<real>, cutoff: real, earlier: real, now: real)
    requires earlier <= now && StampedBy(h, earlier)
    ensures Within(Evict(h, cutoff), cutoff, now)
  {
    EvictSortedInWindow(h, cutoff);
    SuffixStamped(h, Evict(h, cutoff), earlier, now);
  }

  /** Every entry lies between `lo` and `hi`. */
  predicate Within(ts: seq<real>, lo: real, hi: real)
  {
    forall i :: 0 <= i < |ts| ==> lo <= ts[i] <= hi
  }

  lemma AppendWithin(ts: seq<real>, lo: real, hi: real)
    requires lo <= hi && Within(ts, lo, hi)
    ensures Within(ts + [hi], lo, hi)
  {
    assert forall i :: 0 <= i < |ts| ==> (ts + [hi])[i] == ts[i];
  }

  /**
    The limiter's own test: with a cap of 2 and a 1-second window, two calls at
    time t pass and a third fails; a call more than a second later passes again,
    while one exactly a second later still fails, as the entries at t sit on the
    boundary and survive.
  */
  lemma BurstThenRecovery(t: real, later: real)
    requires later > t + 1.0
    ensures var l0 := NewLimiter(2, 1);
            var d1 := IsAllowed(l0, "c", t);
            var d2 := IsAllowed(d1.limiter, "c", t);
            var d3 := IsAllowed(d2.limiter, "c", t);
            && d1.allowed && d2.allowed && !d3.allowed
            && IsAllowed(d3.limiter, "c", later).allowed
            && !IsAllowed(d3.limiter, "c", t + 1.0).allowed
  {
    var l3 := BurstFillsCap(t);
    RecoveryAfterWindow(l3, t, later);
  }

  /** Two calls at the same instant fill a cap of 2; the third is refused and records nothing. */
  lemma BurstFillsCap(t: real) returns (l3: Limiter)
    ensures var l0 := NewLimiter(2, 1);
            var d1 := IsAllowed(l0, "c", t);
            var d2 := IsAllowed(d1.limiter, "c", t);
            var d3 := IsAllowed(d2.limiter, "c", t);
            && d1.allowed && d2.allowed && !d3.allowed
            && l3 == d3.limiter
    ensures l3.maxRequests == 2 && l3.timeWindow == 1 && History(l3, "c") == [t, t]
  {
    var l0 := NewLimiter(2, 1);
    var cutoff := t - 1.0;
    var d1 := IsAllowed(l0, "c", t);
    assert d1.allowed && d1.limiter.requests["c"] == [t];
    EvictStops([t], cutoff);
    var d2 := IsAllowed(d1.limiter, "c", t);
    assert d2.allowed && d2.limiter.requests["c"] == [t, t];
    EvictStops([t, t], cutoff);
    var d3 := IsAllowed(d2.limiter, "c", t);
    l3 := d3.limiter;
  }

  /** Two entries at t block a call exactly one window later and free up right after it. */
  lemma RecoveryAfterWindow(l: Limiter, t: real, later: real)
    requires l.maxRequests == 2 && l.timeWindow == 1 && History(l, "c") == [t, t]
    requires later > t + 1.0
    ensures IsAllowed(l, "c", later).allowed
    ensures !IsAllowed(l, "c", t + 1.0).allowed
  {
    EvictAllStale([t, t], later - 1.0);
    EvictStops([t, t], t + 1.0 - 1.0);
  }

  /** Eviction stops at the first entry that is not older than the cutoff. */
  lemma EvictStops(ts: seq<real>, cutoff: real)
    requires ts == [] || ts[0] >= cutoff
    ensures Evict(ts, cutoff) == ts
  {
  }

  /** A list whose every entry is older than the cutoff is emptied. */
  lemma EvictAllStale(ts: seq<real>, cutoff: real)
    requires forall i :: 0 <= i < |ts| ==> ts[i] < cutoff
    ensures Evict(ts, cutoff) == []
  {
  }

  /** Identities do not share capacity: a call for one never changes another's answer. */
  lemma IdentitiesIndependent(l: Limiter, id: string, other: string, now: real, at: real)
    requires other != id
    ensures IsAllowed(IsAllowed(l, id, now).limiter, other, at).allowed == IsAllowed(l, other, at).allowed
  {
    var l' := IsAllowed(l, id, now).limiter;
    assert History(l', other) == History(l, other);
  }
}

=== FILE: server.dfy ===
/**
  `SecureServer`: the admission step of the accept loop and the per-connection
  handler `_handle_client`, as pure functions over an inbound chunk stream.

  The handler runs through the phases of the protocol: authenticate the token,
  read the metadata and check the declared size, read the salt, iv and tag,
  receive the payload, then verify, decrypt and store. Each phase either hands
  its value to the next one (`Next`) or ends the body (`Stop`) by returning
  early, by raising, or by blocking on a read that never completes. The handler's
  `except` and `finally` clauses then answer a raised error with a best-effort
  error reply, close the connection and drop the registry entry.

  Two parameters are not in the code as written. `key` is the decryption key,
  which the code reads from a variable it never assigns (None reproduces that:
  the verification step raises NameError). `ackToken` makes the handler answer an
  accepted token with `{}`, which the client waits for; the code as written sends
  nothing.
*/
module Server {
  import opened Octets
  import opened Wrappers
  import opened Messages
  import opened Transport
  import Primitives
  import Encryption
  import RateLimiter
  import Settings

  /** The buffer of every JSON read, `recv(1024)`. */
  const MessageBuffer: nat := 1024
  /** The largest payload read, `min(4096, ...)`. */
  const PayloadChunk: nat := 4096
  /** The fixed-size reads of the envelope parameters. */
  const SaltRead: nat := 16
  const IvRead: nat := 16
  const MacRead: nat := 32

  /**
    What `verify_token` does with the token it is given: return True, return
    False, or raise ValueError for an expired or an invalid token.
  */
  datatype TokenVerdict = TokenAccepted | TokenRefused | TokenExpired | TokenInvalid

  /**
    `Authentication.verify_token` as written: it never returns False, and a
    missing token (`None`) is not a string PyJWT can decode, so it is invalid.
  */
  ghost predicate RaisesOnFailure(verifyToken: JValue -> TokenVerdict)
  {
    && (forall v :: verifyToken(v) != TokenRefused)
    && verifyToken(JNull) == TokenInvalid
  }

  /** The exceptions that can escape the body of `_handle_client`. */
  datatype Exc =
    | MalformedMessage       // json.loads on bytes that are not JSON, or on an empty read
    | NotAnObject            // .get or [] on a JSON document that is not an object
    | MissingKey(key: string) // KeyError on the metadata
    | UncomparableSize       // TypeError comparing a non-integer filesize
    | ExpiredToken           // verify_token: "Token has expired"
    | InvalidToken           // verify_token: "Invalid token"
    | KeyUndefined           // NameError: `key` is never assigned
    | StorageFailure         // open/write of the received file failed
    | BrokenPipe             // conn.send on a connection the peer has left

  /** `str(e)`, sent back as the error reply. */
  function ExcText(e: Exc): string
  {
    match e
    case MalformedMessage => "malformed JSON message"
    case NotAnObject => "message is not a JSON object"
    case MissingKey(k) => "'" + k + "'"
    case UncomparableSize => "filesize is not comparable with an integer"
    case ExpiredToken => "Token has expired"
    case InvalidToken => "Invalid token"
    case KeyUndefined => "name 'key' is not defined"
    case StorageFailure => "could not write the received file"
    case BrokenPipe => "[Errno 32] Broken pipe"
  }

  /** Which handler runs: the size cap and the two parameters discussed above, as written or corrected. */
  datatype HandlerVariant = HandlerVariant(maxFileSize: int, key: Option<Bytes>, ackToken: bool)

  /** The handler exactly as written. */
  function AsWritten(): HandlerVariant
  {
    HandlerVariant(Settings.MaxFileSize, None, false)
  }

  /**
    What the handler calls but the model does not look inside: the crypto
    library, the JSON codec, the token check and whether the file
    `received_<filename>` can be written.
  */
  datatype Env = Env(
    prims: Primitives.Primitives,
    codec: Codec,
    verifyToken: JValue -> TokenVerdict,
    canWrite: JValue -> bool)

  /** One `recv(requested)` that returned `received` bytes. */
  datatype ReadEvent = ReadEvent(requested: nat, received: nat)

  /** The file written: the `filename` field of the metadata and the decrypted bytes. */
  datatype StoredFile = StoredFile(filename: JValue, contents: Bytes)

  /**
    The connection as the handler sees it: what is left to read, how many more
    sends the peer accepts before a send raises, the replies sent, the reads made
    and the file written, if any.
  */
  datatype Conn = Conn(
    inbound: Inbound,
    sendBudget: nat,
    sent: seq<Json>,
    recvs: seq<ReadEvent>,
    stored: Option<StoredFile>)

  /** How the body of the handler ended. */
  datatype Exit = Returned | Raised(e: Exc) | Blocked(requested: nat)

  datatype Step<T> = Next(value: T, conn: Conn) | Stop(exit: Exit, conn: Conn)

  datatype Metadata = Metadata(filename: JValue, filesize: int)

  datatype Params = Params(salt: Bytes, iv: Bytes, mac: Bytes)

  /**
    The handler's result: replies, completed reads, stored file, the read it is
    still blocked in (None once the connection is closed), and the registry.
  */
  datatype Outcome = Outcome(
    sent: seq<Json>,
    recvs: seq<ReadEvent>,
    stored: Option<StoredFile>,
    waiting: Option<nat>,
    registry: map<string, real>)
  {
    predicate Closed()
    {
      waiting.None?
    }
  }

  /** No success reply has gone out. */
  predicate Unacknowledged(c: Conn)
  {
    SuccessReply() !in c.sent
  }

  /** Every reply sent between `c` and `c'` used up one unit of the peer's budget. */
  predicate Spent(c: Conn, c': Conn)
  {
    |c'.sent| + c'.sendBudget == |c.sent| + c.sendBudget
  }

  /** `conn.recv(n)`, logged. */
  function Read(c: Conn, n: nat): (s: Step<Bytes>)
    requires n > 0
    ensures s.Next? ==>
      && |s.value| <= n
      && s.conn == c.(inbound := s.conn.inbound, recvs := c.recvs + [ReadEvent(n, |s.value|)])
    ensures s.Stop? <==> c.inbound.chunks == [] && !c.inbound.peerClosed
    ensures s.Stop? ==> s.exit == Blocked(n) && s.conn == c
  {
    match Recv(c.inbound, n)
    case None => Stop(Blocked(n), c)
    case Some((data, rest)) => Next(data, c.(inbound := rest, recvs := c.recvs + [ReadEvent(n, |data|)]))
  }

  /** `conn.send(...)` of a JSON message; it raises once the peer stops accepting. */
  function Send(c: Conn, m: Json): (s: Step<()>)
    ensures s.Next? <==> c.sendBudget > 0
    ensures s.Next? ==> s.conn == c.(sendBudget := c.sendBudget - 1, sent := c.sent + [m])
    ensures s.Stop? ==> s.exit == Raised(BrokenPipe) && s.conn == c
  {
    if c.sendBudget == 0 then Stop(Raised(BrokenPipe), c)
    else Next((), c.(sendBudget := c.sendBudget - 1, sent := c.sent + [m]))
  }

  /** Send a reply, then `return`. */
  function Reply<T>(c: Conn, m: Json): (s: Step<T>)
    ensures s.Stop?
    ensures c.sendBudget > 0 ==> s == Stop(Returned, c.(sendBudget := c.sendBudget - 1, sent := c.sent + [m]))
    ensures c.sendBudget == 0 ==> s == Stop(Raised(BrokenPipe), c)
  {
    match Send(c, m)
    case Next(_, c') => Stop(Returned, c')
    case Stop(x, c') => Stop(x, c')
  }

  /** `json.loads(conn.recv(1024).decode())`. */
  function ReadMessage(env: Env, c: Conn): (s: Step<Json>)
    ensures Spent(c, s.conn)
    ensures s.Next? ==> s.conn.sent == c.sent && s.conn.stored == c.stored
    ensures s.Stop? ==> s.conn.sent == c.sent && s.conn.stored == c.stored && s.exit != Returned
    ensures s.Stop? ==> s.exit == Blocked(MessageBuffer) || s.exit == Raised(MalformedMessage)
    ensures s.Next? <==>
      Recv(c.inbound, MessageBuffer).Some? && env.codec.decode(Recv(c.inbound, MessageBuffer).value.0).Some?
    ensures s.Next? ==> s.value == env.codec.decode(Recv(c.inbound, MessageBuffer).value.0).value
  {
    match Read(c, MessageBuffer)
    case Stop(x, c') => Stop(x, c')
    case Next(data, c') =>
      match env.codec.decode(data)
      case None => Stop(Raised(MalformedMessage), c')
      case Some(m) => Next(m, c')
  }

  /** The `token` field, `None` when absent: `auth_data.get('token')`. */
  function TokenOf(fields: map<string, JValue>): (t: JValue)
    ensures "token" in fields ==> t == fields["token"]
    ensures "token" !in fields ==> t == JNull
  {
    if "token" in fields then fields["token"] else JNull
  }

  /**
    Lines 57-62: read the token message and check the token. A refused token is
    answered with "Authentication failed"; a raised ValueError leaves the body.
  */
  function Authenticate(cfg: HandlerVariant, env: Env, c: Conn): (s: Step<()>)
    ensures Spent(c, s.conn)
    ensures s.conn.stored == c.stored
    ensures Unacknowledged(c) ==> Unacknowledged(s.conn)
    ensures s.Next? ==> |s.conn.recvs| == |c.recvs| + 1
  {
    match ReadMessage(env, c)
    case Stop(x, c1) => Stop(x, c1)
    case Next(m, c1) =>
      if !m.Obj? then Stop(Raised(NotAnObject), c1)
      else match env.verifyToken(TokenOf(m.fields))
        case TokenExpired => Stop(Raised(ExpiredToken), c1)
        case TokenInvalid => Stop(Raised(InvalidToken), c1)
        case TokenRefused =>
          SuccessReplyDistinct("Authentication failed");
          Reply(c1, ErrorReply("Authentication failed"))
        case TokenAccepted =>
          SuccessReplyDistinct("");
          if cfg.ackToken then Send(c1, EmptyReply()) else Next((), c1)
  }

  /**
    Lines 64-75: read the metadata, then refuse a declared size above the cap
    with "File too large"; a size equal to the cap passes.
  */
  function ReadMetadata(cfg: HandlerVariant, env: Env, c: Conn): (s: Step<Metadata>)
    ensures Spent(c, s.conn)
    ensures s.conn.stored == c.stored
    ensures Unacknowledged(c) ==> Unacknowledged(s.conn)
    ensures s.Next? ==> s.value.filesize <= cfg.maxFileSize && s.conn.sent == c.sent
    ensures s.Next? ==> |s.conn.recvs| == |c.recvs| + 1
  {
    match ReadMessage(env, c)
    case Stop(x, c1) => Stop(x, c1)
    case Next(m, c1) =>
      if !m.Obj? then Stop(Raised(NotAnObject), c1)
      else if "filename" !in m.fields then Stop(Raised(MissingKey("filename")), c1)
      else if "filesize" !in m.fields then Stop(Raised(MissingKey("filesize")), c1)
      else match m.fields["filesize"]
        case JInt(size) =>
          if size > cfg.maxFileSize then
            SuccessReplyDistinct("File too large");
            Reply(c1, ErrorReply("File too large"))
          else Next(Metadata(m.fields["filename"], size), c1)
        case _ => Stop(Raised(UncomparableSize), c1)
  }

  /** Lines 77-80: three fixed-size recvs, none checked for a short count. */
  function ReadParams(c: Conn): (s: Step<Params>)
    ensures Spent(c, s.conn)
    ensures s.conn.stored == c.stored && s.conn.sent == c.sent
    ensures s.Stop? ==> s.exit.Blocked?
    ensures s.Stop? ==>
      || (s.exit == Blocked(SaltRead) && s.conn.recvs == c.recvs)
      || (|s.conn.recvs| > |c.recvs| && s.conn.recvs[|c.recvs|].requested == SaltRead)
    ensures s.Next? ==>
      && |s.value.salt| <= SaltRead && |s.value.iv| <= IvRead && |s.value.mac| <= MacRead
      && s.conn.recvs == c.recvs + [ReadEvent(SaltRead, |s.value.salt|),
                                    ReadEvent(IvRead, |s.value.iv|),
                                    ReadEvent(MacRead, |s.value.mac|)]
  {
    match Read(c, SaltRead)
    case Stop(x, c1) => Stop(x, c1)
    case Next(salt, c1) =>
      match Read(c1, IvRead)
      case Stop(x, c2) => Stop(x, c2)
      case Next(iv, c2) =>
        match Read(c2, MacRead)
        case Stop(x, c3) => Stop(x, c3)
        case Next(mac, c3) => Next(Params(salt, iv, mac), c3)
  }

  /**
    The recvs of the payload loop, starting with `received` bytes in hand: each
    asks for `min(4096, filesize - received)` bytes, which is positive, and gets
    no more than that.
  */
  predicate PayloadTrace(rs: seq<ReadEvent>, received: int, filesize: int)
    decreases |rs|
  {
    rs == [] ||
    (&& received < filesize
     && rs[0].requested == Min(PayloadChunk, filesize - received)
     && rs[0].received <= rs[0].requested
     && PayloadTrace(rs[1..], received + rs[0].received, filesize))
  }

  /**
    What the payload loop leaves behind: the bytes received, the stream after
    its last read, its recvs in order, and the size of the read it is blocked
    in, if it blocked.
  */
  datatype Loop = Loop(data: Bytes, rest: Inbound, log: seq<ReadEvent>, waiting: Option<nat>)

  /**
    Lines 83-92: the payload loop, started with `data` in hand (`bytes_received`
    is always its length). It stops when `filesize` bytes are in, or earlier on
    an empty read (the peer closed), which still goes on to verification; a read
    that blocks ends the handler there.
  */
  function ReceivePayload(t: Inbound, filesize: int, data: Bytes): (l: Loop)
    ensures l.rest.peerClosed == t.peerClosed
    decreases filesize - |data|
  {
    if |data| >= filesize then Loop(data, t, [], None)
    else
      var n := Min(PayloadChunk, filesize - |data|);
      match Recv(t, n)
      case None => Loop(data, t, [], Some(n))
      case Some((chunk, t')) =>
        if chunk == [] then Loop(data, t', [ReadEvent(n, 0)], None)
        else
          var l := ReceivePayload(t', filesize, data + chunk);
          l.(log := [ReadEvent(n, |chunk|)] + l.log)
  }

  /**
    Every read of the loop asks for `min(4096, filesize - bytes_received) > 0`
    and gets no more, and the loop blocks only in a read of that size.
  */
  lemma {:induction false} PayloadLoopReads(t: Inbound, filesize: int, data: Bytes)
    ensures var l := ReceivePayload(t, filesize, data);
            && PayloadTrace(l.log, |data|, filesize)
            && (l.waiting.Some? ==> 0 < l.waiting.value <= PayloadChunk)
    decreases filesize - |data|
  {
    if |data| < filesize {
      var n := Min(PayloadChunk, filesize - |data|);
      match Recv(t, n)
      case None =>
      case Some((chunk, t')) =>
        if chunk != [] {
          PayloadLoopReads(t', filesize, data + chunk);
          var l := ReceivePayload(t', filesize, data + chunk);
          assert ([ReadEvent(n, |chunk|)] + l.log)[1..] == l.log;
        }
    }
  }

  /**
    The loop loses and duplicates nothing: the bytes it ends with, followed by
    what is still unread, are the bytes it started with followed by what was
    pending.
  */
  lemma {:induction false} PayloadLoopConserves(t: Inbound, filesize: int, data: Bytes)
    ensures var l := ReceivePayload(t, filesize, data);
            l.data + Pending(l.rest) == data + Pending(t)
    decreases filesize - |data|
  {
    if |data| < filesize {
      var n := Min(PayloadChunk, filesize - |data|);
      match Recv(t, n)
      case None =>
      case Some((chunk, t')) =>
        if chunk != [] {
          PayloadLoopConserves(t', filesize, data + chunk);
          assert data + chunk + Pending(t') == data + (chunk + Pending(t'));
        }
    }
  }

  /**
    What the loop hands to verification: the bytes in hand followed by
    everything read, never more than `filesize`, and short of `filesize` only
    when the last read came back empty.
  */
  lemma {:induction false} PayloadLoopData(t: Inbound, filesize: int, data: Bytes)
    requires |data| <= filesize
    ensures var l := ReceivePayload(t, filesize, data);
            l.waiting.None? ==>
              && |data| <= |l.data| <= filesize && l.data[..|data|] == data
              && (|l.data| == filesize || (l.log != [] && l.log[|l.log| - 1].received == 0))
    decreases filesize - |data|
  {
    if |data| < filesize {
      var n := Min(PayloadChunk, filesize - |data|);
      match Recv(t, n)
      case None =>
      case Some((chunk, t')) =>
        if chunk != [] {
          var data' := data + chunk;
          PayloadLoopData(t', filesize, data');
          var l := ReceivePayload(t', filesize, data');
          if l.waiting.None? {
            assert l.data[..|data|] == (l.data[..|data'|])[..|data|];
          }
        }
    }
  }

  /**
    A peer that closes after sending fewer bytes than declared does not make
    the loop fail: it ends on the empty read holding exactly what was sent, and
    the handler goes on to verify that short payload.
  */
  lemma {:induction false} PeerCloseEndsLoop(t: Inbound, filesize: int, data: Bytes)
    requires t.peerClosed && WellFormed(t)
    requires |data| + |Pending(t)| < filesize
    ensures var l := ReceivePayload(t, filesize, data);
            && l.waiting.None? && l.data == data + Pending(t) && l.rest.chunks == []
            && l.log != [] && l.log[|l.log| - 1].received == 0
    decreases filesize - |data|
  {
    var n := Min(PayloadChunk, filesize - |data|);
    match Recv(t, n)
    case Some((chunk, t')) =>
      if chunk != [] {
        PeerCloseEndsLoop(t', filesize, data + chunk);
        assert data + chunk + Pending(t') == data + (chunk + Pending(t'));
      }
  }

  /**
    Line 70 lets a declared size of zero or less through (only a larger one is
    refused), and then the loop of line 86 never runs: nothing is read and
    verification gets an empty payload.
  */
  lemma NonPositiveSizeReadsNothing(cfg: HandlerVariant, env: Env, c: Conn, meta: Metadata, params: Params)
    requires meta.filesize <= 0
    requires Unacknowledged(c) && c.stored.None?
    ensures ReceivePayload(c.inbound, meta.filesize, []) == Loop([], c.inbound, [], None)
    ensures var s := Finish(cfg, env, c, meta, params, []);
            Deliver(cfg, env, c, meta, params) == (s.exit, s.conn)
  {
    assert c.(inbound := c.inbound, recvs := c.recvs + []) == c;
  }

  /**
    Lines 99-123: verify and decrypt, answer a failure with "Integrity check
    failed", otherwise write the file and only then send the success reply.
  */
  function Finish(cfg: HandlerVariant, env: Env, c: Conn, meta: Metadata, params: Params, payload: Bytes): (s: Step<()>)
    ensures Spent(c, s.conn)
    ensures s.Stop?
    ensures cfg.key.None? ==> s == Stop(Raised(KeyUndefined), c)
    ensures cfg.key.Some? &&
            Encryption.VerifyAndDecrypt(env.prims, cfg.key.value, params.iv, payload, params.mac).Failure? ==>
              s == Reply(c, ErrorReply("Integrity check failed"))
    ensures s.conn.stored != c.stored ==>
      && cfg.key.Some? && env.canWrite(meta.filename)
      && s.conn.stored == Some(StoredFile(meta.filename, Encryption.VerifyAndDecrypt(
           env.prims, cfg.key.value, params.iv, payload, params.mac).value))
    ensures Unacknowledged(c) && !Unacknowledged(s.conn) ==>
      && s.exit == Returned && s.conn.stored.Some? && s.conn.sent == c.sent + [SuccessReply()]
  {
    match cfg.key
    case None => Stop(Raised(KeyUndefined), c)
    case Some(key) =>
      match Encryption.VerifyAndDecrypt(env.prims, key, params.iv, payload, params.mac)
      case Failure(_) =>
        SuccessReplyDistinct("Integrity check failed");
        Reply(c, ErrorReply("Integrity check failed"))
      case Success(plain) =>
        if !env.canWrite(meta.filename) then Stop(Raised(StorageFailure), c)
        else Reply(c.(stored := Some(StoredFile(meta.filename, plain))), SuccessReply())
  }

  /**
    The payload loop followed by verification, once the envelope parameters are
    in: the loop's reads are appended to the log, and a loop that blocks ends
    the body there.
  */
  function Deliver(cfg: HandlerVariant, env: Env, c: Conn, meta: Metadata, params: Params): (r: (Exit, Conn))
    requires Unacknowledged(c) && c.stored.None?
    ensures Spent(c, r.1)
    ensures r.1.stored.Some? ==> cfg.key.Some? && env.canWrite(r.1.stored.value.filename)
    ensures !Unacknowledged(r.1) ==>
      && r.0 == Returned && r.1.stored.Some? && |r.1.sent| > 0
      && r.1.sent[|r.1.sent| - 1] == SuccessReply() && SuccessReply() !in r.1.sent[..|r.1.sent| - 1]
    ensures c.recvs <= r.1.recvs
  {
    var l := ReceivePayload(c.inbound, meta.filesize, []);
    var c' := c.(inbound := l.rest, recvs := c.recvs + l.log);
    if l.waiting.Some? then (Blocked(l.waiting.value), c')
    else
      var s := Finish(cfg, env, c', meta, params, l.data);
      assert !Unacknowledged(s.conn) ==> s.conn.sent[..|s.conn.sent| - 1] == c'.sent;
      (s.exit, s.conn)
  }

  /**
    Everything after the size check: the envelope parameters, the payload and
    the verification. Its first read is the salt.
  */
  function Transfer(cfg: HandlerVariant, env: Env, c: Conn, meta: Metadata): (r: (Exit, Conn))
    requires Unacknowledged(c) && c.stored.None?
    ensures Spent(c, r.1)
    ensures r.1.stored.Some? ==> cfg.key.Some? && env.canWrite(r.1.stored.value.filename)
    ensures !Unacknowledged(r.1) ==>
      && r.0 == Returned && r.1.stored.Some? && |r.1.sent| > 0
      && r.1.sent[|r.1.sent| - 1] == SuccessReply() && SuccessReply() !in r.1.sent[..|r.1.sent| - 1]
    ensures || (r.0 == Blocked(SaltRead) && r.1.recvs == c.recvs)
            || (|r.1.recvs| > |c.recvs| && r.1.recvs[|c.recvs|].requested == SaltRead)
  {
    match ReadParams(c)
    case Stop(x, c3) => (x, c3)
    case Next(params, c3) =>
      var r := Deliver(cfg, env, c3, meta, params);
      assert r.1.recvs[|c.recvs|] == c3.recvs[|c.recvs|];
      r
  }

  /** The `try` body of `_handle_client`, phase after phase. */
  function Body(cfg: HandlerVariant, env: Env, c: Conn): (r: (Exit, Conn))
    requires Unacknowledged(c) && c.stored.None?
    ensures Spent(c, r.1)
    ensures r.1.stored.Some? ==> cfg.key.Some? && env.canWrite(r.1.stored.value.filename)
    ensures !Unacknowledged(r.1) ==>
      && r.0 == Returned && r.1.stored.Some? && |r.1.sent| > 0
      && r.1.sent[|r.1.sent| - 1] == SuccessReply() && SuccessReply() !in r.1.sent[..|r.1.sent| - 1]
  {
    match Authenticate(cfg, env, c)
    case Stop(x, c1) => (x, c1)
    case Next(_, c1) =>
      match ReadMetadata(cfg, env, c1)
      case Stop(x, c2) => (x, c2)
      case Next(meta, c2) => Transfer(cfg, env, c2, meta)
  }

  /**
    `_handle_client` for the connection `clientId`, whose peer has sent `inbound`
    and accepts `sendBudget` replies. Every exit but a read blocked forever closes
    the connection and removes `clientId` from the registry; a raised error is
    answered with its text unless that send fails too, which is suppressed; and a
    success reply is the last message sent, only after the file is written.
  */
  function Handle(cfg: HandlerVariant, env: Env, clientId: string, registry: map<string, real>,
                  inbound: Inbound, sendBudget: nat): (o: Outcome)
    ensures o.Closed() ==> clientId !in o.registry && o.registry == registry - {clientId}
    ensures !o.Closed() ==> o.registry == registry
    ensures |o.sent| <= sendBudget
    ensures o.stored.Some? ==> cfg.key.Some? && env.canWrite(o.stored.value.filename)
    ensures SuccessReply() in o.sent ==>
      && o.stored.Some? && o.Closed()
      && o.sent[|o.sent| - 1] == SuccessReply() && SuccessReply() !in o.sent[..|o.sent| - 1]
  {
    var c0 := Conn(inbound, sendBudget, [], [], None);
    var (exit, c) := Body(cfg, env, c0);
    match exit
    case Blocked(n) => Outcome(c.sent, c.recvs, c.stored, Some(n), registry)
    case Returned => Outcome(c.sent, c.recvs, c.stored, None, registry - {clientId})
    case Raised(e) =>
      SuccessReplyDistinct(ExcText(e));
      var c' := Send(c, ErrorReply(ExcText(e))).conn;
      Outcome(c'.sent, c'.recvs, c'.stored, None, registry - {clientId})
  }

  /** The reply to a token that is not accepted. */
  function RejectionText(v: TokenVerdict): string
  {
    match v
    case TokenRefused => "Authentication failed"
    case TokenExpired => ExcText(ExpiredToken)
    case _ => ExcText(InvalidToken)
  }

  /**
    A token that is not accepted, whether `verify_token` returns False or
    raises, is answered with one error reply and the connection is closed: the
    token read is the only read, so no metadata, parameter or payload is read.
  */
  lemma TokenRejectedEndsConnection(cfg: HandlerVariant, env: Env, clientId: string, registry: map<string, real>,
                                    inbound: Inbound, sendBudget: nat,
                                    data: Bytes, rest: Inbound, fields: map<string, JValue>)
    requires Recv(inbound, MessageBuffer) == Some((data, rest))
    requires env.codec.decode(data) == Some(Obj(fields))
    requires env.verifyToken(TokenOf(fields)) != TokenAccepted
    requires sendBudget > 0
    ensures var o := Handle(cfg, env, clientId, registry, inbound, sendBudget);
            && o.Closed() && o.stored.None?
            && o.recvs == [ReadEvent(MessageBuffer, |data|)]
            && o.sent == [ErrorReply(RejectionText(env.verifyToken(TokenOf(fields))))]
  {
  }

  /**
    With `verify_token` as written, a bad token never takes the "Authentication
    failed" branch: the reply is the text of the ValueError it raised.
  */
  lemma RejectionGoesThroughHandler(verifyToken: JValue -> TokenVerdict, token: JValue)
    requires RaisesOnFailure(verifyToken)
    requires verifyToken(token) != TokenAccepted
    ensures RejectionText(verifyToken(token)) in {"Token has expired", "Invalid token"}
    ensures RejectionText(verifyToken(token)) != "Authentication failed"
  {
  }

  /**
    A declared size above the cap is answered with "File too large" right after
    the metadata read: no salt, iv, tag or payload is read and nothing is stored.
  */
  lemma OversizeEndsBeforeParams(cfg: HandlerVariant, env: Env, clientId: string, registry: map<string, real>,
                                 inbound: Inbound, sendBudget: nat,
                                 d1: Bytes, rest1: Inbound, f1: map<string, JValue>,
                                 d2: Bytes, rest2: Inbound, f2: map<string, JValue>)
    requires Recv(inbound, MessageBuffer) == Some((d1, rest1))
    requires env.codec.decode(d1) == Some(Obj(f1))
    requires env.verifyToken(TokenOf(f1)) == TokenAccepted
    requires Recv(rest1, MessageBuffer) == Some((d2, rest2))
    requires env.codec.decode(d2) == Some(Obj(f2))
    requires "filename" in f2 && "filesize" in f2
    requires f2["filesize"].JInt? && f2["filesize"].i > cfg.maxFileSize
    requires sendBudget > 1
    ensures var o := Handle(cfg, env, clientId, registry, inbound, sendBudget);
            && o.Closed() && o.stored.None?
            && o.recvs == [ReadEvent(MessageBuffer, |d1|), ReadEvent(MessageBuffer, |d2|)]
            && o.sent == (if cfg.ackToken then [EmptyReply()] else []) + [ErrorReply("File too large")]
  {
  }

  /** A declared size equal to the cap passes the check: the next read is the 16-byte salt. */
  lemma CapItselfAccepted(cfg: HandlerVariant, env: Env, clientId: string, registry: map<string, real>,
                          inbound: Inbound, sendBudget: nat,
                          d1: Bytes, rest1: Inbound, f1: map<string, JValue>,
                          d2: Bytes, rest2: Inbound, f2: map<string, JValue>)
    requires Recv(inbound, MessageBuffer) == Some((d1, rest1))
    requires env.codec.decode(d1) == Some(Obj(f1))
    requires env.verifyToken(TokenOf(f1)) == TokenAccepted
    requires Recv(rest1, MessageBuffer) == Some((d2, rest2))
    requires env.codec.decode(d2) == Some(Obj(f2))
    requires "filename" in f2 && "filesize" in f2 && f2["filesize"] == JInt(cfg.maxFileSize)
    requires sendBudget > 1
    ensures var o := Handle(cfg, env, clientId, registry, inbound, sendBudget);
            o.waiting == Some(SaltRead) || (|o.recvs| > 2 && o.recvs[2].requested == SaltRead)
  {
    var c0 := Conn(inbound, sendBudget, [], [], None);
    var a := Authenticate(cfg, env, c0);
    var m := ReadMetadata(cfg, env, a.conn);
    assert m.Next? && |m.conn.recvs| == 2;
    assert Body(cfg, env, c0) == Transfer(cfg, env, m.conn, m.value);
    HandleReflectsBody(cfg, env, clientId, registry, inbound, sendBudget);
  }

  /** The handler's outcome keeps the body's reads and the read it blocked in. */
  lemma HandleReflectsBody(cfg: HandlerVariant, env: Env, clientId: string, registry: map<string, real>,
                           inbound: Inbound, sendBudget: nat)
    ensures var r := Body(cfg, env, Conn(inbound, sendBudget, [], [], None));
            var o := Handle(cfg, env, clientId, registry, inbound, sendBudget);
            && o.recvs == r.1.recvs
            && (r.0.Blocked? <==> o.waiting.Some?)
            && (r.0.Blocked? ==> o.waiting == Some(r.0.requested))
  {
  }

  /** The accept loop's bookkeeping: the rate limiter and `active_connections`. */
  datatype Supervisor = Supervisor(limiter: RateLimiter.Limiter, registry: map<string, real>)

  /**
    Lines 16-21: a limiter of `RATE_LIMIT_REQUESTS` admissions per
    `RATE_LIMIT_PERIOD` seconds, with no history, and no active connections.
  */
  function NewSupervisor(): (s: Supervisor)
    ensures s.registry == map[]
    ensures s.limiter.maxRequests == Settings.RateLimitRequests
    ensures s.limiter.timeWindow == Settings.RateLimitPeriod
    ensures forall id :: RateLimiter.History(s.limiter, id) == []
  {
    Supervisor(RateLimiter.NewLimiter(Settings.RateLimitRequests, Settings.RateLimitPeriod), map[])
  }

  /** Whether a connection was handed to a handler, and the state afterwards. */
  datatype Admission = Admission(dispatched: bool, state: Supervisor)

  /**
    Lines 31-47 for one accepted connection: a connection the rate limiter
    refuses is closed with no handler and no registry entry; an admitted one is
    registered under its identity with its start time.
  */
  function Admit(s: Supervisor, clientId: string, now: real): (a: Admission)
    ensures a.dispatched == RateLimiter.IsAllowed(s.limiter, clientId, now).allowed
    ensures a.state.limiter == RateLimiter.IsAllowed(s.limiter, clientId, now).limiter
    ensures !a.dispatched ==> a.state.registry == s.registry
    ensures a.dispatched ==> a.state.registry == s.registry[clientId := now]
  {
    var d := RateLimiter.IsAllowed(s.limiter, clientId, now);
    if !d.allowed then Admission(false, s.(limiter := d.limiter))
    else Admission(true, Supervisor(d.limiter, s.registry[clientId := now]))
  }

  /**
    One accepted connection from admission to the end of its handler, run to
    completion before the next accept. A refused connection starts no handler
    and leaves the registry alone; a handler that finishes leaves no entry for
    its identity behind.
  */
  function ServeConnection(cfg: HandlerVariant, env: Env, s: Supervisor, clientId: string, now: real,
                           inbound: Inbound, sendBudget: nat): (r: (Supervisor, Option<Outcome>))
    ensures r.0.limiter == Admit(s, clientId, now).state.limiter
    ensures r.1.None? <==> !Admit(s, clientId, now).dispatched
    ensures r.1.None? ==> r.0.registry == s.registry
    ensures r.1.Some? ==> r.0.registry == (if r.1.value.Closed() then s.registry - {clientId}
                                           else s.registry[clientId := now])
  {
    var a := Admit(s, clientId, now);
    if !a.dispatched then (a.state, None)
    else
      var o := Handle(cfg, env, clientId, a.state.registry, inbound, sendBudget);
      RegisterThenRemove(s.registry, clientId, now);
      (a.state.(registry := o.registry), Some(o))
  }

  /**
    A fresh server admits its first connection from any identity and registers
    it alone; its limiter then holds that one admission and nothing else.
  */
  lemma FirstConnectionAdmitted(clientId: string, now: real)
    ensures var a := Admit(NewSupervisor(), clientId, now);
            && a.dispatched && a.state.registry == map[clientId := now]
            && RateLimiter.History(a.state.limiter, clientId) == [now]
            && forall id :: id != clientId ==> RateLimiter.History(a.state.limiter, id) == []
  {
    var s := NewSupervisor();
    assert RateLimiter.History(s.limiter, clientId) == [];
    var a := Admit(s, clientId, now);
    assert forall id :: id != clientId ==> RateLimiter.History(a.state.limiter, id) == RateLimiter.History(s.limiter, id);
  }

  lemma RegisterThenRemove(m: map<string, real>, k: string, v: real)
    ensures m[k := v] - {k} == m - {k}
  {
  }
}

=== FILE: settings.dfy ===
/** The constants of `Config` that the protocol depends on. */
module Settings {

  /** `MAX_FILE_SIZE`: 100 MiB. */
  const MaxFileSize: int := 100 * 1024 * 1024

  /** `RATE_LIMIT_REQUESTS` admissions per identity ... */
  const RateLimitRequests: int := 10

  /** ... within `RATE_LIMIT_PERIOD` seconds. */
  const RateLimitPeriod: int := 60
}

=== FILE: transport.dfy ===
/**
  The receiving half of a stream socket. What the peer has sent and not yet been
  read is a sequence of delivered chunks; `recv(n)` returns at most `n` bytes of
  the first one, keeping the rest for the next read. When nothing is pending, a
  closed peer makes `recv` return the empty string and an open one makes it
  block (no socket timeout is ever set).
*/
module Transport {
  import opened Octets
  import opened Wrappers

  datatype Inbound = Inbound(chunks: seq<Bytes>, peerClosed: bool)

  /** Every byte still to be read, in order. */
  function Pending(t: Inbound): Bytes
  {
    Concat(t.chunks)
  }

  /** No delivered chunk is empty: an empty read can only mean the peer closed. */
  predicate WellFormed(t: Inbound)
  {
    forall i :: 0 <= i < |t.chunks| ==> |t.chunks[i]| > 0
  }

  function Min(a: int, b: int): int
  {
    if a <= b then a else b
  }

  /**
    `recv(n)`. None stands for a read that blocks forever. A read loses and
    duplicates nothing: what it returns followed by what remains is what was
    pending.
  */
  function Recv(t: Inbound, n: nat): (r: Option<(Bytes, Inbound)>)
    requires n > 0
    ensures r.None? <==> t.chunks == [] && !t.peerClosed
    ensures r.Some? ==> |r.value.0| <= n
    ensures r.Some? ==> r.value.0 + Pending(r.value.1) == Pending(t)
    ensures r.Some? ==> r.value.1.peerClosed == t.peerClosed
    ensures r.Some? && t.chunks != [] ==> |r.value.0| == Min(n, |t.chunks[0]|)
    ensures r.Some? && WellFormed(t) ==> WellFormed(r.value.1) && (r.value.0 == [] <==> t.chunks == [])
  {
    if t.chunks == [] then
      if t.peerClosed then Some(([], t)) else None
    else
      var front := t.chunks[0];
      if |front| <= n then
        Some((front, t.(chunks := t.chunks[1..])))
      else
        var rest := [front[n..]] + t.chunks[1..];
        assert Concat(rest) == front[n..] + Concat(t.chunks[1..]);
        assert front[..n] + front[n..] == front;
        Some((front[..n], t.(chunks := rest)))
  }
}

=== FILE: wrappers.dfy ===
/** Failure-carrying result types shared by the whole model. */
module Wrappers {

  /** An optional value: a dictionary lookup that may miss, a read that may block. */
  datatype Option<+T> = None | Some(value: T)

  /** The outcome of an operation that either yields a value or raises an error. */
  datatype Result<+R, +E> = Success(value: R) | Failure(error: E)
}
